=== FILE: README.md ===
# libfl staged transactions, modelled in Dafny

libfl prepares a package installation in a staged transaction. Files are
first created, linked and copied under a scratch directory
`/tmp/fl_XXXXXXXXXXXXX`. `libfl_transact_commit` then walks that tree and
replays its files over the effective root (its links, as written, cannot
be replayed; see below). When the transaction is destroyed, the
scratch directory is removed with `nftw(3)`.

This project models that engine:

- `transact.c`;
- the scratch-area code of `io.c`;
- the buffer helpers of `misc.c`;
- three pure helpers of the legacy Python package manager `fpkg.py`:
  - membership by strip/sort/bisect;
  - the binary-content test;
  - the dependency set arithmetic.

The model follows the code as written, including the places where it does
something other than what its names suggest:

- `symlink` reports success only when `errno` already held `EEXIST`.
- `copy` passes the destination descriptor to `sendfile` as the *input*. Data therefore flows from `file2` into `file1`, for `file1`'s size.
- Cleanup asks for `FTW_DEPTH` but tests for `FTW_D`, so it aborts at the first directory and never removes one.
- The scratch mode `777` is decimal.
- The NUL counted by `sizeof` is part of the name alphabet.
- `copy` opens both files under its descriptor but runs `chmod` on `file2` relative to the working directory. Under the scratch descriptor with a relative `file2`, it fails with FL_EOPENFILE when the working directory has no such file, and otherwise changes the mode of that unrelated file.
- `copy_link` hands `symlinkat` a buffer that `readlinkat` never terminated.
- Commit hands `copy_link` the same absolute path (`"/dir/name"`, built from `""`) as the link to read and the link to create, so both descriptors are ignored. Either `readlinkat` fails, or it finds a link at that path and `symlinkat` then meets the same link. Every staged link therefore ends the commit with -1 and FL_ESENDFILE.

## Layout

- `kernel.dfy` (module `Kernel`): the operating system as a value.
  - `Os` holds the filesystem (`map<Path, Node>`), `errno`, a log of the system calls issued, the working directory, and a failure oracle keyed by operation and resolved path.
  - Every system call is a pure function from one `Os` to the next: `mkdirat`, `openat`, `fstat`, `chmod`, `chown`, `sendfile`, `symlinkat`, `readlinkat`, `opendir`, `rmdir`, `unlink`, `close`, and `dirname(3)`.
  - `errno` is written only on failure, as in C. A stale value survives a successful call.
- `misc.dfy` (module `Misc`):
  - the error enum of `include/libfl/misc.h`;
  - `carand`, `randpath` and `memdup` as methods on arrays;
  - `Fill`, the function that specifies them;
  - C strings (`CString`: the characters before the first NUL).
- `context.dfy` (module `Context`): the process. The class `Process` holds the machine and `g_libfl_errno`, which the library methods update in place, plus the effective root, uid and gid.
- `io.dfy` (module `Io`):
  - the scratch name;
  - `TmpInitEffect`;
  - the `nftw` callback;
  - the `FTW_DEPTH` walk as functions;
  - the class `Tmp`, with fields `dirPath` and `dirFd`, and its methods `Init` and `Cleanup`.
- `transact.dfy` (module `Transact`):
  - one specification function per operation: `MkdirPrefixes`, `OpenEffect`, `SymlinkEffect`, `CopyEffect`, `CopyLinkEffect`, `CommitDir`;
  - the lemmas about them;
  - the class `Transact`, with fields `rootPath`, `rootFd` and `tmp`, whose methods implement the operations step by step and are proved equal to those functions. `RecursiveMkdir` works in place on a `char` array.
- `fpkg.dfy` (module `Fpkg`):
  - `str.strip`;
  - Python's string order;
  - a reference sort;
  - `bisect_left` and `bs_and_sort`;
  - `is_binary_string`;
  - `get_deps`.

## Model

| member | source | states |
|---|---|---|
| Misc.Fill | src/libfl/misc.c:49-51 | the characters carand writes number exactly the draws, and each is a character of the template |
| Misc.FillAt | src/libfl/misc.c:50 | character `i` of the fill is `template[rand[i] % len]` |
| Misc.Carand | src/libfl/misc.c:43-52 | exactly `result[offset..offset+len)` is overwritten, with the fill of the first `len` draws; everything before and after is unchanged |
| Misc.FillStart | src/libfl/misc.c:59-65 | the fill starts at an '@' at index 1 or later (index 0 is never inspected) |
| Misc.FindFill | src/libfl/misc.c:59-65 | the pointer walk stops exactly at the first '@' after index 0 |
| Misc.Strlen | src/libfl/misc.c:67 | the length counted is the distance to the first NUL from the fill position |
| Misc.Randpath | src/libfl/misc.c:55-70 | the buffer is unchanged before the first '@' after index 0 and from the terminating NUL on; the `strlen` characters in between are carand's fill; requires the '@' and NUL the unbounded scan needs |
| Misc.Memdup | src/libfl/misc.c:33-40 | allocation failure gives null; otherwise a fresh array equal to `data[0..len)` |
| Context.Process.constructor | src/libfl/context.c:13-21 | the process after libfl_init: machine as given, g_libfl_errno FL_EOK, root, uid and gid recorded |
| Io.TmpNameShape | src/libfl/io.c:13-25 | every scratch name starts with "/tmp/fl_", is at most 13 characters longer, and those characters come from the 64-character set |
| Io.TmpNameCanCollapse | src/libfl/io.c:14-25 | because sizeof counts the NUL, a first draw of 64 (mod 65) makes the scratch name exactly "/tmp/fl_" |
| Io.FillTemplate | src/libfl/io.c:22-25 | randpath on the stack template yields exactly the scratch name TmpName(rand) |
| Io.TmpInitEffect | src/libfl/io.c:27-31 | mkdir, chown and open are all issued whatever the earlier ones returned; a kept descriptor is open on the directory the name resolves to; a directory that mkdir has just created, or one that already existed, is opened unless open faults |
| Io.Tmp.Init | src/libfl/io.c:21-32 | the filled template's C string becomes dirPath, and machine and descriptor are those of TmpInitEffect on that name; g_libfl_errno is untouched |
| Io.RemoveCallback | src/libfl/io.c:34-62 | FTW_D is rmdir'ed and FTW_F/FTW_SL unlinked; 0 exactly when that removal succeeds, and then exactly that node is gone; any failure or other flag gives -1 with FL_ERMDIR and the filesystem unchanged |
| Io.NftwDir | src/libfl/io.c:68 | walking a directory under FTW_DEPTH keeps the filesystem well formed, never creates a directory, and returns 0 or -1 |
| Io.NftwEntries | src/libfl/io.c:68 | the entry loop of the walk keeps the filesystem well formed, creates no directory, and returns 0 or -1 |
| Io.NftwEntriesSteps | src/libfl/io.c:68 | the entry loop skips "." and "..", ends with the result of the first entry whose walk returned nonzero (no later sibling is visited), runs an entry that returned 0 followed by the rest of the entries from the machine it left, and hands the directory itself to the callback as FTW_DP at the end |
| Io.NftwEntry | src/libfl/io.c:68 | one entry keeps the filesystem well formed, creates no directory, and returns 0 or -1 |
| Io.NftwEntryCases | src/libfl/io.c:39-68 | one entry by what stat says of it: a directory is walked; a file (or a link to one) is handed over as FTW_F and the result is 0 exactly when unlink succeeds; a link to a directory (FTW_DP), a dangling link (FTW_SLN) or a vanished entry (FTW_NS) gives -1 with the machine unchanged |
| Io.Nftw | src/libfl/io.c:68 | the top-level walk keeps the filesystem well formed |
| Io.NftwDirAborts | src/libfl/io.c:39-59 | under FTW_DEPTH a directory arrives as FTW_DP, so walking one ends with -1, removes no directory, never reaches rmdir, and every callback before the last was an unlinked file |
| Io.NftwEntriesAborts | src/libfl/io.c:39-59 | the same for the rest of a directory's entries |
| Io.NftwEntryAborts | src/libfl/io.c:45-59 | an entry lets the walk continue only when it was a file that was unlinked; otherwise the walk aborts as above |
| Io.VisitAborts | src/libfl/io.c:39-59 | a node handed over as anything but FTW_D or FTW_SL either is a file the callback unlinked (0, g_libfl_errno unchanged) or aborts the walk |
| Io.ThenAborts | src/libfl/io.c:68 | an unlinked file followed by an aborted walk of the remaining entries is an aborted walk |
| Io.CleanupOfDirectoryFails | src/libfl/io.c:66-70 | cleanup of an existing scratch directory always returns -1 from nftw and leaves every directory, the scratch directory included, in place |
| Io.Tmp.Cleanup | src/libfl/io.c:66-70 | the descriptor is closed before the walk, nftw's result is ignored, and the machine and g_libfl_errno are those the walk leaves |
| Transact.Slashes | src/libfl/transact.c:67-68 | the positions the scan cuts at are slash positions within the scanned range |
| Transact.SlashesComplete | src/libfl/transact.c:67-68 | every slash in the scanned range is a position the scan cuts at |
| Transact.SlashesIncreasing | src/libfl/transact.c:67-68 | the cut positions come in strictly increasing order, each once |
| Transact.MkdirPrefixes | src/libfl/transact.c:66-81 | the mkdir scan keeps the filesystem well formed; when it stops, it stops at a slash whose mkdirat failed with an errno other than EEXIST |
| Transact.MkdirPrefixesStops | src/libfl/transact.c:69-76 | a mkdirat failure other than EEXIST at the first slash of the scan ends it there: the result is that slash, with the machine that mkdirat left and no later prefix attempted |
| Transact.MkdirPrefixesContinues | src/libfl/transact.c:69-77 | a mkdirat at the first slash that succeeds, or fails with EEXIST, lets the scan go on after that slash from the machine it left |
| Transact.MkdiratExists | src/libfl/transact.c:69-70 | without injected failures, the mkdirat of the scan fails with EEXIST exactly when the prefix resolves to the root, to a path ending in "..", or to an existing entry (a directory or not) |
| Transact.MkdirPrefixesKeepsKeys | src/libfl/transact.c:66-81 | the scan removes no entry |
| Transact.MkdirPrefixesMaterializes | src/libfl/transact.c:66-81 | a scan that returns 0 without injected failures leaves every prefix before a slash resolvable and present: the root, a path ending in "..", or an existing entry (a directory or, as EEXIST tolerates, a regular file) |
| Transact.MkdirPrefixesRepeat | src/libfl/transact.c:66-81 | with every prefix before a slash already present and no injected failures, the scan returns 0 and leaves the filesystem as it was |
| Transact.MkdirPrefixesCalls | src/libfl/transact.c:66-81 | mkdirat is issued for exactly the prefixes that end before a slash, shortest first, up to and including the first failure other than EEXIST |
| Transact.NoSlashNoMkdir | src/libfl/transact.c:67-81 | a path with no slash issues no call, changes nothing, and succeeds |
| Transact.Transact.RecursiveMkdir | src/libfl/transact.c:64-82 | the in-place scan equals MkdirPrefixes on the buffer's C string; on 0 the buffer is byte-for-byte as on entry and g_libfl_errno untouched; on -1 FL_EMKDIR is set and the NUL stays at the failing slash |
| Transact.OpenEffect | src/libfl/transact.c:84-94 | g_libfl_errno becomes FL_EMKDIR exactly when the ignored mkdir scan failed and is otherwise unchanged; a descriptor is returned exactly when the openat succeeds, and it is open on an empty regular file at the path (O_CREAT, O_TRUNC) |
| Transact.OpenSkipsParent | src/libfl/transact.c:86-93 | the calls issued are the mkdir scan of dirname(path) and then the openat; dirname itself is never passed to mkdirat, so for "a/b/c" only "a" is created |
| Transact.OpenInPlace | src/libfl/transact.c:86-93 | a path without a slash issues only the openat |
| Transact.Transact.Open | src/libfl/transact.c:84-94 | runs the scan on a copy of dirname (the caller's path is not touched) and equals OpenEffect |
| Transact.SymlinkEffect | src/libfl/transact.c:96-106 | 0 exactly when symlinkat succeeded and errno already held EEXIST; otherwise -1 with FL_ESYMLINK |
| Transact.SymlinkReportsCreatedLinkAsFailure | src/libfl/transact.c:98-104 | with a fresh errno, a link that was created is still reported as a failure |
| Transact.Transact.Symlink | src/libfl/transact.c:96-106 | equals SymlinkEffect under the scratch descriptor |
| Transact.CopyEffect | src/libfl/transact.c:108-140 | 0 leaves g_libfl_errno alone; -1 sets FL_EOPENFILE or FL_ESENDFILE; no directory is created or removed |
| Transact.CopyOpenFails | src/libfl/transact.c:109-117 | if either open fails, the result is -1 with FL_EOPENFILE and only the two opens were issued |
| Transact.CopyChmodFails | src/libfl/transact.c:119-127 | with both files open, a failed chmod gives -1 with FL_EOPENFILE and no sendfile is issued |
| Transact.CopySendfileStep | src/libfl/transact.c:129-140 | after both opens and the chmod succeed, the result is 0 (g_libfl_errno untouched) exactly when sendfile succeeds, and -1 with FL_ESENDFILE otherwise |
| Transact.CopyIssuesAll | src/libfl/transact.c:108-137 | once the chmod has succeeded, the calls issued are exactly the two opens, the chmod and the sendfile, in that order |
| Transact.CopyDirection | src/libfl/transact.c:119-134 | when file2 resolves to the same path from atfd and from the working directory, as commit's absolute paths do: after a successful copy, file1's first bytes are replaced by file2's (at most file1's size), and file2 keeps its data and takes file1's permission bits |
| Transact.CopyRelativeChmodFails | src/libfl/transact.c:109-127 | with a relative file2 under a scratch directory that is not the working directory, and no file2 in the working directory, copy returns -1 with FL_EOPENFILE once both opens have succeeded, because chmod looks file2 up from the working directory |
| Transact.CopyToNewFileCopiesNothing | src/libfl/transact.c:110-134 | when file2 resolves to the same path from atfd and from the working directory, as commit's absolute paths do: copying onto a file that does not exist leaves the source as it was and the new file empty |
| Transact.Copy | src/libfl/transact.c:108-140 | the step-by-step copy equals CopyEffect |
| Transact.Transact.CopyFile | src/libfl/transact.c:159-162 | libfl_transact_copy is copy under the scratch descriptor |
| Transact.LinkBufferFaithful | src/libfl/transact.c:144-151 | the link target reaches symlinkat intact exactly when the stale byte after it is NUL |
| Transact.CopyLinkEffect | src/libfl/transact.c:142-157 | 0 exactly when readlinkat and then symlinkat succeed; then the source is a link and a new link exists at the destination, holding the unterminated buffer's C string; otherwise -1 with FL_ESYMLINK |
| Transact.CopyLink | src/libfl/transact.c:142-157 | the buffer-based implementation equals CopyLinkEffect |
| Transact.CommitDir | src/libfl/transact.c:183-235 | commit never creates or removes a directory, keeps the filesystem well formed, and returns 0 or -1; an opendir failure gives -1 with FL_EOPENDIR and no other effect |
| Transact.CommitEntries | src/libfl/transact.c:198-234 | the readdir loop keeps the filesystem well formed, creates and removes no directory, and returns 0 or -1 |
| Transact.CommitEntriesSteps | src/libfl/transact.c:198-234 | "." and ".." are skipped wherever they appear; the first entry that gives -1 ends the loop with its result and no later sibling is visited; an entry that succeeds hands its machine and g_libfl_errno to the rest; the end of the listing gives 0 |
| Transact.CommitEntry | src/libfl/transact.c:204-231 | one entry keeps the filesystem well formed, creates and removes no directory, and returns 0 or -1 |
| Transact.CommitEntryCases | src/libfl/transact.c:204-231 | one entry by d_type: a directory is committed recursively; a regular file is copied and the result is 0 whatever the copy gave; a link is handed to copy_link, 0 exactly when copy_link succeeds and otherwise -1 with FL_ESENDFILE; anything else changes nothing |
| Transact.CommitDirFailure | src/libfl/transact.c:189-222 | a failed commit always reports FL_EOPENDIR or FL_ESENDFILE, never copy's or copy_link's own codes |
| Transact.CommitEntriesFailure | src/libfl/transact.c:198-222 | the same for the remaining entries of a directory |
| Transact.CommitEntryFailure | src/libfl/transact.c:204-222 | the same for one entry |
| Transact.LinkCommitAlwaysFails | src/libfl/transact.c:215-222 | with the absolute paths commit builds, a link entry always gives -1 with FL_ESENDFILE: copy_link reads and creates the same path, so it can never succeed |
| Transact.CommitEmpty | src/libfl/transact.c:198-234 | a directory holding only "." and ".." commits with 0 and changes neither the filesystem nor g_libfl_errno |
| Transact.SkipDots | src/libfl/transact.c:198-202 | a listing whose remaining entries are all "." or ".." ends the loop with 0 and no effect |
| Transact.Transact.CommitDirectory | src/libfl/transact.c:183-235 | the recursive readdir loop equals CommitDir on the transaction's paths and descriptors |
| Transact.Transact.CommitEntryStep | src/libfl/transact.c:204-231 | the loop body for one entry equals CommitEntry: recursion, copy with its result dropped, copy_link with FL_ESENDFILE on failure, or nothing |
| Transact.Transact.Commit | src/libfl/transact.c:237-239 | commit is the walk from "" (so child paths start with "/") |
| Transact.Transact.constructor | src/libfl/transact.c:43-48 | the zeroed structure: empty root path, no descriptor, a fresh zeroed scratch record |
| Transact.Transact.Init | src/libfl/transact.c:42-62 | malloc failure gives null with FL_EALLOC and nothing done; otherwise tmp_init, then the root is opened; on success the fields hold the root and both descriptors; on failure the scratch area is cleaned up, the root descriptor closed, null returned and FL_EOPENDIR set |
| Transact.Transact.Destroy | src/libfl/transact.c:34-40 | the scratch area is cleaned up, then the root descriptor is closed |
| Fpkg.TrimLeft | legacy/fpkg.py:151 | removes exactly the leading run of whitespace |
| Fpkg.TrimRight | legacy/fpkg.py:151 | removes exactly the trailing run of whitespace |
| Fpkg.Strip | legacy/fpkg.py:151 | a stripped string is empty or begins and ends with a non-space |
| Fpkg.StripIdempotent | legacy/fpkg.py:151 | stripping twice is stripping once |
| Fpkg.LessIrreflexive | legacy/fpkg.py:152 | no string sorts before itself |
| Fpkg.LessTransitive | legacy/fpkg.py:152 | the string order is transitive |
| Fpkg.LessTotal | legacy/fpkg.py:152 | of two different strings one sorts before the other |
| Fpkg.Insert | legacy/fpkg.py:152 | inserting into a sorted list keeps it sorted and adds exactly the one element |
| Fpkg.SortStrings | legacy/fpkg.py:152 | list.sort(): sorted, and a permutation of the input |
| Fpkg.BisectLeft | legacy/fpkg.py:153 | every element before the index sorts below the needle, and none from the index on |
| Fpkg.BisectFinds | legacy/fpkg.py:153-154 | in a sorted list the guarded check at bisect_left's index holds exactly when the needle is in the list |
| Fpkg.StrippedMember | legacy/fpkg.py:151-152 | the needle is in the sorted stripped list exactly when it is the strip of some haystack entry |
| Fpkg.BsAndSort | legacy/fpkg.py:150-157 | True exactly when the needle equals the strip of some haystack entry |
| Fpkg.PaddedNeedleNeverFound | legacy/fpkg.py:151-154 | the needle is not stripped, so one with leading or trailing whitespace is never found |
| Fpkg.ByteRange | legacy/fpkg.py:209 | bytearray(range(lo, hi)): hi - lo bytes counting up from lo |
| Fpkg.InByteRange | legacy/fpkg.py:209 | a byte is in bytearray(range(lo, hi)) exactly when lo <= b < hi |
| Fpkg.Translate | legacy/fpkg.py:209 | bytes.translate(None, delete) keeps only input bytes that are not in the deletion table, and every input byte not in the table survives |
| Fpkg.TranslateAppend | legacy/fpkg.py:209 | translate works piecewise: the translation of a concatenation is the concatenation of the translations, so order and multiplicity are kept |
| Fpkg.TranslateOne | legacy/fpkg.py:209 | a single byte is kept exactly when it is not in the deletion table |
| Fpkg.TextTableIsTextBytes | legacy/fpkg.py:209 | the deletion table is exactly {7,8,9,10,12,13,27}, 0x20-0x7e and 0x80-0xff |
| Fpkg.IsBinaryStringIff | legacy/fpkg.py:209 | binary exactly when some byte lies outside the text bytes |
| Fpkg.IsBinaryStringCases | legacy/fpkg.py:225 | empty input is not binary; NUL, VT or DEL anywhere make it binary (the same classifier as in delta.check) |
| Fpkg.Needed | legacy/fpkg.py:388-395 | the dependencies gathered from the first k packages are never requested or installed packages |
| Fpkg.ListOf | legacy/fpkg.py:394 | list(set(...)): each element once, and exactly the elements of the set |
| Fpkg.GetDeps | legacy/fpkg.py:384-399 | the result has no duplicates and holds exactly the gathered dependencies |
| Fpkg.NeededIff | legacy/fpkg.py:384-399 | a name is returned exactly when it is a dependency of some package that was found, and is neither requested nor installed |
| Fpkg.NeededUpTo | legacy/fpkg.py:386-395 | the same after the first n packages of the loop |

## Left out

- The real system calls. They are pure functions over an abstract filesystem, and failures come from an oracle keyed by operation and resolved path. The simplifications:
  - descriptor numbers are not modelled;
  - `..` is not resolved;
  - there is no umask;
  - `open`, `chmod` and `opendir` do not follow symbolic links;
  - no call follows a symbolic link in an intermediate path component: paths are resolved by their text, so `mkdirat`, `open` with `O_CREAT` and `symlinkat` beneath a linked directory fail with ENOTDIR where Linux would follow the link (for example, `copy` onto `/lib/x` when `/lib` is a link to a directory fails with FL_EOPENFILE in the model, but creates the file on Linux);
  - `sendfile` copies everything asked for in one call; the Linux limit of 0x7ffff000 bytes per call is not modelled;
  - `stat` follows a single link hop, so a chain of links counts as dangling.
- `open(2)` with `O_CREAT` but no mode argument (`copy`): the new file's mode is modelled as 0 rather than whatever the caller's stack held.
- `readdir` returns the directory's entry list as it was at `opendir`. Entries added or removed during the walk are not seen.
- `d_type` is always available. `DT_UNKNOWN` is not modelled.
- Io.Nftw: `nftw` without `FTW_PHYS` descends into a symbolic link to a directory. Under `FTW_DEPTH` it hands the files found there to the callback as `FTW_F` before the linked directory's own `FTW_DP`, and the callback unlinks them, although they lie outside the scratch directory. The model hands such a link over as `FTW_DP` at once, without descending, so it does not show those deletions.
- The descriptor limit of 64 passed to `nftw` is not modelled.
- Memory:
  - `malloc`, `free` and `strdup` (and their failures inside `open` and `tmp_init`) are not modelled;
  - the leaked `DIR` streams and descriptors on `copy`'s error paths are not modelled;
  - `smprintf` is modelled as string concatenation.
- Logging (`libfl_io_log`, `libfl_io_elog`) and the messages it prints.
- Randomness: `clock_gettime`, `srandom` and `random` are replaced by the sequence of draws `random()` would return, passed as a parameter. `getuid`, `getgid` and `chown`'s owner are parameters of `Process`.
- Transact.CopyLinkEffect: the uninitialised buffer of `copy_link` is a parameter `stale` holding what it contained before. A buffer with no NUL at all, which C would read past, is modelled as ending at its last byte.
- Io.NftwDirAborts: the `g_libfl_errno` left after an aborted walk is stated only as FL_ERMDIR or unchanged, not which of the two.
- Transact.CommitDir: the uninitialised stack buffer of `copy_link` is the same `stale` contents for every link of a commit. In C each call's buffer would likely hold the previous call's target, and the model does not carry it from one link to the next.
- Fpkg.ListOf: the order of `list(set(...))` is left open. Python's hash order is not modelled.
- `fpkg.py`:
  - all I/O (downloads, threads, archives, checksums, prompts, lockfile) is left out;
  - `db.lookup` and the JSON read in `get_deps` are one parameter `info`;
  - `listpackages()` is a parameter `installed`;
  - the `KeyError` of a package without `"dependencies"` is the `NoDependencies` case.
- `libfl_destroy` (`context.c`) only frees memory and is not modelled.
- The test program's expectation that a copy reproduces its source is not a property of this model: `CopyDirection` shows the data moving the other way.

=== FILE: context.dfy ===
/**
 * The process-wide state libfl works against: the machine (filesystem,
 * errno, call log) and the library's own globals, the error slot
 * g_libfl_errno and the effective uid, gid and root captured by libfl_init.
 */
module Context {
  import opened Kernel
  import opened Misc

  /** What one library step leaves behind: the machine, g_libfl_errno and
      the C return value. */
  datatype Post = Post(os: Os, fl: FlError, ret: int)

  class Process {
    var os: Os
    /** g_libfl_errno */
    var flErrno: FlError
    /** g_libfl_effective_root, g_libfl_effective_uid, g_libfl_effective_gid */
    const effectiveRoot: string
    const uid: nat
    const gid: nat

    ghost predicate Valid()
      reads this
    {
      WellFormed(os.fs)
    }

    /** The state after libfl_init(root) succeeded on the machine `os0`. */
    constructor (os0: Os, root: string, euid: nat, egid: nat)
      requires WellFormed(os0.fs)
      ensures Valid()
      ensures os == os0 && flErrno == EOk
      ensures effectiveRoot == root && uid == euid && gid == egid
    {
      os := os0;
      flErrno := EOk;
      effectiveRoot := root;
      uid := euid;
      gid := egid;
    }
  }
}

=== FILE: fpkg.dfy ===
/**
 * The pure helpers of the legacy package manager fpkg: membership by
 * strip, sort and bisect (`fileOp.bs_and_sort`), the binary-content test
 * of `delta.check` and `delta.save`, and the set arithmetic by which
 * `pkgInfo.get_deps` gathers the dependencies still to install.
 */
module Fpkg {
  import opened Kernel

  // ----------------------------------------------------------------------
  // str.strip()

  /** str.isspace() for one character: the ASCII whitespace, the
      separators 0x1c-0x1f and the Unicode spaces Python counts. */
  predicate IsSpace(c: char) {
    c == ' ' || ('\t' <= c <= '\r') || ('\U{1c}' <= c <= '\U{1f}') || c == '\U{85}' || c == '\U{a0}'
    || c == '\U{1680}' || ('\U{2000}' <= c <= '\U{200a}') || c == '\U{2028}' || c == '\U{2029}'
    || c == '\U{202f}' || c == '\U{205f}' || c == '\U{3000}'
  }

  function TrimLeft(s: string): (r: string)
    ensures |r| <= |s| && r == s[|s| - |r|..]
    ensures forall k :: 0 <= k < |s| - |r| ==> IsSpace(s[k])
    ensures r == [] || !IsSpace(r[0])
  {
    if s != [] && IsSpace(s[0]) then TrimLeft(s[1..]) else s
  }

  function TrimRight(s: string): (r: string)
    ensures |r| <= |s| && r == s[..|r|]
    ensures forall k :: |r| <= k < |s| ==> IsSpace(s[k])
    ensures r == [] || !IsSpace(r[|r| - 1])
  {
    if s != [] && IsSpace(s[|s| - 1]) then TrimRight(s[..|s| - 1]) else s
  }

  /** str.strip(): leading and trailing whitespace removed. */
  function Strip(s: string): (r: string)
    ensures r == [] || (!IsSpace(r[0]) && !IsSpace(r[|r| - 1]))
  {
    TrimRight(TrimLeft(s))
  }

  /** Stripping twice is stripping once. */
  lemma StripIdempotent(s: string)
    ensures Strip(Strip(s)) == Strip(s)
  {
    var r := Strip(s);
    assert TrimLeft(r) == r;
    assert TrimRight(r) == r;
  }

  // ----------------------------------------------------------------------
  // Python's ordering of str: lexicographic by code point

  predicate Less(a: string, b: string) {
    if a == [] then b != []
    else if b == [] then false
    else a[0] < b[0] || (a[0] == b[0] && Less(a[1..], b[1..]))
  }

  lemma {:induction false} LessIrreflexive(a: string)
    ensures !Less(a, a)
  {
    if a != [] {
      LessIrreflexive(a[1..]);
    }
  }

  lemma {:induction false} LessTransitive(a: string, b: string, c: string)
    requires Less(a, b) && Less(b, c)
    ensures Less(a, c)
  {
    if a != [] && b != [] && c != [] && a[0] == b[0] == c[0] {
      LessTransitive(a[1..], b[1..], c[1..]);
    }
  }

  lemma {:induction false} LessTotal(a: string, b: string)
    requires a != b
    ensures Less(a, b) || Less(b, a)
  {
    if a != [] && b != [] && a[0] == b[0] {
      LessTotal(a[1..], b[1..]);
    }
  }

  /** `not b < a` and `not c < b` give `not c < a`. */
  lemma AtMostTransitive(a: string, b: string, c: string)
    requires !Less(b, a) && !Less(c, b)
    ensures !Less(c, a)
  {
    if Less(c, a) {
      if a != b {
        LessTotal(a, b);
        if b != c {
          LessTotal(b, c);
          LessTransitive(c, a, b);
        }
      }
    }
  }

  ghost predicate Sorted(s: seq<string>) {
    forall i, j :: 0 <= i < j < |s| ==> !Less(s[j], s[i])
  }

  // ----------------------------------------------------------------------
  // list.sort(), as a reference function

  function Insert(x: string, s: seq<string>): (r: seq<string>)
    requires Sorted(s)
    ensures Sorted(r) && multiset(r) == multiset(s) + multiset{x}
  {
    if s == [] then [x]
    else if !Less(s[0], x) then
      InsertFront(x, s);
      [x] + s
    else
      var t := Insert(x, s[1..]);
      InsertBehind(x, s, t);
      assert s == [s[0]] + s[1..];
      [s[0]] + t
  }

  lemma InsertFront(x: string, s: seq<string>)
    requires Sorted(s) && s != [] && !Less(s[0], x)
    ensures Sorted([x] + s)
  {
    forall j | 0 < j < |s| + 1 ensures !Less(([x] + s)[j], x) {
      if j > 1 {
        AtMostTransitive(x, s[0], s[j - 1]);
      }
    }
  }

  lemma InsertBehind(x: string, s: seq<string>, t: seq<string>)
    requires Sorted(s) && s != [] && Less(s[0], x)
    requires Sorted(t) && multiset(t) == multiset(s[1..]) + multiset{x}
    ensures Sorted([s[0]] + t)
  {
    forall j | 0 <= j < |t| ensures !Less(t[j], s[0]) {
      assert t[j] in multiset(t);
      if t[j] == x {
        if Less(x, s[0]) {
          LessTransitive(x, s[0], x);
          LessIrreflexive(x);
        }
      } else {
        assert t[j] in multiset(s[1..]);
        var k :| 0 <= k < |s[1..]| && s[1..][k] == t[j];
        assert s[k + 1] == t[j];
      }
    }
  }

  /** What list.sort() leaves: the same strings, in ascending order. */
  function SortStrings(s: seq<string>): (r: seq<string>)
    ensures Sorted(r) && multiset(r) == multiset(s)
  {
    if s == [] then []
    else
      assert s == [s[0]] + s[1..];
      Insert(s[0], SortStrings(s[1..]))
  }

  // ----------------------------------------------------------------------
  // bs_and_sort

  /** bisect_left: the first index whose element is not below `x`. */
  method BisectLeft(a: seq<string>, x: string) returns (lo: nat)
    requires Sorted(a)
    ensures lo <= |a|
    ensures forall j :: 0 <= j < lo ==> Less(a[j], x)
    ensures forall j :: lo <= j < |a| ==> !Less(a[j], x)
  {
    lo := 0;
    var hi := |a|;
    while lo < hi
      invariant lo <= hi <= |a|
      invariant forall j :: 0 <= j < lo ==> Less(a[j], x)
      invariant forall j :: hi <= j < |a| ==> !Less(a[j], x)
    {
      var mid := (lo + hi) / 2;
      if Less(a[mid], x) {
        forall j | lo <= j <= mid ensures Less(a[j], x) {
          if a[j] != a[mid] {
            LessTotal(a[j], a[mid]);
            LessTransitive(a[j], a[mid], x);
          }
        }
        lo := mid + 1;
      } else {
        forall j | mid < j < hi ensures !Less(a[j], x) {
          AtMostTransitive(x, a[mid], a[j]);
        }
        hi := mid;
      }
    }
  }

  /** fileOp.bs_and_sort: strips every haystack entry (the needle is left
      as it is), sorts, bisects, and checks the entry at the index. */
  method BsAndSort(needle: string, haystack: seq<string>) returns (found: bool)
    ensures found <==> exists h :: h in haystack && Strip(h) == needle
  {
    var stripped := seq(|haystack|, i requires 0 <= i < |haystack| => Strip(haystack[i]));
    var sorted := SortStrings(stripped);
    var index := BisectLeft(sorted, needle);
    found := index < |sorted| && sorted[index] == needle;
    BisectFinds(sorted, needle, index);
    StrippedMember(needle, haystack, stripped, sorted);
  }

  /** In a sorted list, the entry at bisect_left's index is the needle
      exactly when the needle is in the list. */
  lemma BisectFinds(a: seq<string>, x: string, lo: nat)
    requires Sorted(a) && lo <= |a|
    requires forall j :: 0 <= j < lo ==> Less(a[j], x)
    requires forall j :: lo <= j < |a| ==> !Less(a[j], x)
    ensures (lo < |a| && a[lo] == x) <==> x in a
  {
    if x in a && !(lo < |a| && a[lo] == x) {
      var j :| 0 <= j < |a| && a[j] == x;
      if j < lo {
        LessIrreflexive(x);
      } else {
        LessTotal(a[lo], x);
      }
    }
  }

  lemma StrippedMember(needle: string, haystack: seq<string>, stripped: seq<string>, sorted: seq<string>)
    requires |stripped| == |haystack| && forall i :: 0 <= i < |haystack| ==> stripped[i] == Strip(haystack[i])
    requires multiset(sorted) == multiset(stripped)
    ensures needle in sorted <==> exists h :: h in haystack && Strip(h) == needle
  {
    assert needle in sorted <==> needle in multiset(sorted);
    assert needle in stripped <==> needle in multiset(stripped);
    if needle in stripped {
      var i :| 0 <= i < |stripped| && stripped[i] == needle;
      assert haystack[i] in haystack;
    }
    if exists h :: h in haystack && Strip(h) == needle {
      var h :| h in haystack && Strip(h) == needle;
      var i :| 0 <= i < |haystack| && haystack[i] == h;
      assert stripped[i] == needle;
    }
  }

  /** A needle with leading or trailing whitespace matches no entry,
      since every stripped entry begins and ends with a non-space. */
  lemma PaddedNeedleNeverFound(needle: string, haystack: seq<string>)
    requires needle != [] && (IsSpace(needle[0]) || IsSpace(needle[|needle| - 1]))
    ensures !exists h :: h in haystack && Strip(h) == needle
  {
  }

  // ----------------------------------------------------------------------
  // is_binary_string

  /** range(lo, hi) as bytes. */
  function ByteRange(lo: nat, hi: nat): (r: seq<byte>)
    requires lo <= hi <= 256
    ensures |r| == hi - lo && forall k :: 0 <= k < |r| ==> r[k] as int == lo + k
    decreases hi - lo
  {
    if lo == hi then [] else [lo as byte] + ByteRange(lo + 1, hi)
  }

  /** The deletion table: BEL, BS, TAB, LF, FF, CR, ESC, then 0x20-0x7e
      and 0x80-0xff. */
  function TextTable(): seq<byte> {
    [7, 8, 9, 10, 12, 13, 27] + ByteRange(0x20, 0x7f) + ByteRange(0x80, 0x100)
  }

  /** bytes.translate(None, delete): the bytes not in `delete`, in order. */
  function Translate(data: seq<byte>, delete: seq<byte>): (r: seq<byte>)
    ensures |r| <= |data|
    ensures forall k :: 0 <= k < |r| ==> r[k] !in delete && r[k] in data
    ensures forall k :: 0 <= k < |data| && data[k] !in delete ==> data[k] in r
  {
    if data == [] then []
    else (if data[0] in delete then [] else [data[0]]) + Translate(data[1..], delete)
  }

  /** translate works byte by byte: it distributes over concatenation,
      and a single byte is kept exactly when it is not in `delete`; so it
      keeps the other bytes in order and with their multiplicity. */
  lemma {:induction false} TranslateAppend(a: seq<byte>, b: seq<byte>, delete: seq<byte>)
    ensures Translate(a + b, delete) == Translate(a, delete) + Translate(b, delete)
  {
    if a == [] {
      assert a + b == b;
    } else {
      var head: seq<byte> := if a[0] in delete then [] else [a[0]];
      var ta, tb := Translate(a[1..], delete), Translate(b, delete);
      calc {
        Translate(a + b, delete);
        == { assert (a + b)[0] == a[0] && (a + b)[1..] == a[1..] + b; }
        head + Translate(a[1..] + b, delete);
        == { TranslateAppend(a[1..], b, delete); }
        head + (ta + tb);
        (head + ta) + tb;
      }
    }
  }

  lemma TranslateOne(x: byte, delete: seq<byte>)
    ensures Translate([x], delete) == if x in delete then [] else [x]
  {
    assert [x][1..] == [];
  }

  /** is_binary_string: something is left once the text bytes are deleted. */
  function IsBinaryString(data: seq<byte>): bool {
    |Translate(data, TextTable())| > 0
  }

  /** The bytes that count as text, stated independently of the table. */
  predicate TextByte(b: byte) {
    b in {7, 8, 9, 10, 12, 13, 27} || (0x20 <= b < 0x7f) || 0x80 <= b
  }

  lemma TextTableIsTextBytes(b: byte)
    ensures b in TextTable() <==> TextByte(b)
  {
    var low: seq<byte> := [7, 8, 9, 10, 12, 13, 27];
    var printable, high := ByteRange(0x20, 0x7f), ByteRange(0x80, 0x100);
    assert TextTable() == low + printable + high;
    assert b in low + printable + high <==> b in low || b in printable || b in high;
    InByteRange(0x20, 0x7f, b);
    InByteRange(0x80, 0x100, b);
  }

  lemma InByteRange(lo: nat, hi: nat, b: byte)
    requires lo <= hi <= 256
    ensures b in ByteRange(lo, hi) <==> lo <= b as int < hi
  {
    if lo <= b as int < hi {
      assert ByteRange(lo, hi)[b as int - lo] == b;
    }
  }

  /** The data is binary exactly when one of its bytes is not text. */
  lemma IsBinaryStringIff(data: seq<byte>)
    ensures IsBinaryString(data) <==> exists k :: 0 <= k < |data| && !TextByte(data[k])
  {
    var r := Translate(data, TextTable());
    if IsBinaryString(data) {
      TextTableIsTextBytes(r[0]);
      var k :| 0 <= k < |data| && data[k] == r[0];
    }
    if exists k :: 0 <= k < |data| && !TextByte(data[k]) {
      var k :| 0 <= k < |data| && !TextByte(data[k]);
      TextTableIsTextBytes(data[k]);
    }
  }

  /** Empty input is text; NUL, VT and DEL each make input binary. */
  lemma IsBinaryStringCases(data: seq<byte>)
    ensures !IsBinaryString([])
    ensures 0 in data || 0x0b in data || 0x7f in data ==> IsBinaryString(data)
  {
    IsBinaryStringIff(data);
    if 0 in data || 0x0b in data || 0x7f in data {
      var k :| 0 <= k < |data| && data[k] in {0, 0x0b, 0x7f};
      assert !TextByte(data[k]);
    }
  }

  // ----------------------------------------------------------------------
  // get_deps

  /** What db.lookup and the package's JSON give for one package: not in
      any repository, found without a "dependencies" key, or found with
      its dependency list. */
  datatype PkgInfo = NotFound | NoDependencies | Dependencies(deps: seq<string>)

  ghost predicate NoDuplicates(s: seq<string>) {
    forall i, j :: 0 <= i < j < |s| ==> s[i] != s[j]
  }

  /** The dependencies of the first `k` requested packages that are neither
      requested nor installed. */
  ghost function Needed(pkgs: seq<string>, info: string -> PkgInfo, installed: seq<string>, k: nat): (r: set<string>)
    requires k <= |pkgs|
    ensures forall d :: d in r ==> d !in pkgs && d !in installed
  {
    if k == 0 then {}
    else
      Needed(pkgs, info, installed, k - 1) +
      match info(pkgs[k - 1])
      case Dependencies(ds) => set d | d in ds && d !in pkgs && d !in installed
      case _ => {}
  }

  /** list(set(...)): the elements of a set, once each, in an order the
      model leaves open. */
  method ListOf(s: set<string>) returns (r: seq<string>)
    ensures NoDuplicates(r)
    ensures forall x :: x in r <==> x in s
  {
    r := [];
    var rest := s;
    while rest != {}
      invariant rest <= s && NoDuplicates(r)
      invariant forall x :: x in r <==> x in s - rest
      decreases |rest|
    {
      var x :| x in rest;
      assert x !in r;
      r := r + [x];
      rest := rest - {x};
    }
  }

  /** pkgInfo.get_deps: `info` stands for db.lookup and the JSON read,
      `installed` for listpackages(). */
  method GetDeps(pkgs: seq<string>, info: string -> PkgInfo, installed: seq<string>) returns (needed: seq<string>)
    ensures NoDuplicates(needed)
    ensures forall d :: d in needed <==> d in Needed(pkgs, info, installed, |pkgs|)
  {
    needed := [];
    var k := 0;
    while k < |pkgs|
      invariant k <= |pkgs| && NoDuplicates(needed)
      invariant forall d :: d in needed <==> d in Needed(pkgs, info, installed, k)
    {
      match info(pkgs[k]) {
        case Dependencies(fromJson) =>
          var deps := ListOf(set d | d in fromJson && d !in pkgs);
          deps := ListOf(set d | d in deps && d !in installed);
          needed := needed + deps;
          needed := ListOf(set d | d in needed);
        case _ =>
      }
      k := k + 1;
    }
  }

  /** Everything get_deps returns is a dependency of a requested package,
      and every dependency that is neither requested nor installed is
      returned. */
  lemma NeededIff(pkgs: seq<string>, info: string -> PkgInfo, installed: seq<string>, d: string)
    ensures d in Needed(pkgs, info, installed, |pkgs|) <==>
      d !in pkgs && d !in installed &&
      exists k :: 0 <= k < |pkgs| && info(pkgs[k]).Dependencies? && d in info(pkgs[k]).deps
  {
    NeededUpTo(pkgs, info, installed, d, |pkgs|);
  }

  lemma {:induction false} NeededUpTo(pkgs: seq<string>, info: string -> PkgInfo, installed: seq<string>, d: string, n: nat)
    requires n <= |pkgs|
    ensures d in Needed(pkgs, info, installed, n) <==>
      d !in pkgs && d !in installed &&
      exists k :: 0 <= k < n && info(pkgs[k]).Dependencies? && d in info(pkgs[k]).deps
  {
    if n > 0 {
      NeededUpTo(pkgs, info, installed, d, n - 1);
      if d !in pkgs && d !in installed && info(pkgs[n - 1]).Dependencies? && d in info(pkgs[n - 1]).deps {
        assert d in Needed(pkgs, info, installed, n);
      }
    }
  }
}

=== FILE: io.dfy ===
/**
 * The scratch area (io.c): a uniquely named directory under /tmp, created
 * by `libfl_io_tmp_init` and removed by `libfl_io_tmp_cleanup`, which
 * drives nftw(3) with FTW_DEPTH over the tree and a callback that removes
 * each node it is handed.
 */
module Io {
  import opened Kernel
  import opened Misc
  import opened Context

  /** LIBFL_IO_TMP_PATH_TEMPLATE: a fixed prefix and 13 '@' to fill. */
  const PATH_TEMPLATE: string := "/tmp/fl_@@@@@@@@@@@@@"
  const PREFIX: string := "/tmp/fl_"
  /** The 64 characters of LIBFL_IO_TMP_CARAND_TEMPLATE. */
  const NAME_CHARS: string := "0123456789abcdefghijklmnopqrstuvwxyzABCDEFGHIJKLMNOPQRSTUVWXYZ!?"
  /** The array carand draws from: `sizeof` counts the terminating NUL too. */
  const CARAND_TEMPLATE: seq<char> := NAME_CHARS + ['\0']
  /** LIBFL_IO_TMP_MODE, written in decimal: 777 is 0o1411, not 0o777. */
  const TMP_MODE: nat := 777
  /** The number of '@' that the template holds. */
  const FILL_LEN: nat := 13

  /** The C string the filled template holds: the prefix, then the filled
      characters up to the first NUL that carand happened to draw. */
  function TmpName(rand: seq<nat>): string
    requires |rand| >= FILL_LEN
  {
    CString(PREFIX + Fill(CARAND_TEMPLATE, rand[..FILL_LEN]) + ['\0'])
  }

  /** Every scratch name keeps the prefix "/tmp/fl_", has at most 13 more
      characters, and those are drawn from the 64-character set. */
  lemma TmpNameShape(rand: seq<nat>)
    requires |rand| >= FILL_LEN
    ensures var name := TmpName(rand);
      |PREFIX| <= |name| <= |PREFIX| + FILL_LEN && name[..|PREFIX|] == PREFIX &&
      forall i :: |PREFIX| <= i < |name| ==> name[i] in NAME_CHARS
  {
    var f := Fill(CARAND_TEMPLATE, rand[..FILL_LEN]);
    var buf := PREFIX + f + ['\0'];
    var name := CString(buf);
    assert |buf| == 22 && buf[21] == '\0';
    forall i | |PREFIX| <= i < |name|
      ensures name[i] in NAME_CHARS
    {
      assert name[i] == buf[i] == f[i - |PREFIX|];
      assert f[i - |PREFIX|] in CARAND_TEMPLATE && name[i] != '\0';
    }
    assert name[..|PREFIX|] == buf[..|PREFIX|];
  }

  /** The NUL in the fill alphabet can cut the name short: a first draw of
      64 (mod 65) leaves exactly "/tmp/fl_", shared by every such run. */
  lemma TmpNameCanCollapse(rand: seq<nat>)
    requires |rand| >= FILL_LEN && rand[0] % |CARAND_TEMPLATE| == 64
    ensures TmpName(rand) == PREFIX
  {
    FillAt(CARAND_TEMPLATE, rand[..FILL_LEN], 0);
    assert CARAND_TEMPLATE[64] == '\0';
    PrefixOnly(Fill(CARAND_TEMPLATE, rand[..FILL_LEN]));
  }

  /** A fill that starts with NUL leaves just the prefix. */
  lemma PrefixOnly(f: seq<char>)
    requires f != [] && f[0] == '\0'
    ensures CString(PREFIX + f + ['\0']) == PREFIX
  {
    var buf := PREFIX + f + ['\0'];
    assert buf[..8] == PREFIX && buf[8] == '\0';
    CStringUpTo(buf, 8);
  }

  /** What tmp_init does to the machine: mkdir, chown and open of the name,
      each attempted whatever the one before it returned; the descriptor
      is BadFd when the open fails. */
  function TmpInitEffect(os: Os, name: string): (r: (Os, Handle))
    ensures r.0.log == os.log + [Call(MkdirOp, name), Call(ChownOp, name), Call(OpenOp, name)]
    ensures r.0.cwd == os.cwd && r.0.faults == os.faults
    ensures r.1 != BadFd ==>
      Resolve(Cwd(os), name).Ok? && r.1 == Open(Resolve(Cwd(os), name).value) && r.1.path in DirKeys(r.0.fs)
    ensures WellFormed(os.fs) ==> WellFormed(r.0.fs)
    ensures (Resolve(Cwd(os), name).Ok? && Resolve(Cwd(os), name).value in DirKeys(os.fs) &&
             Fault(OpenOp, Resolve(Cwd(os), name).value) !in os.faults) ==>
      r.1 == Open(Resolve(Cwd(os), name).value)
    ensures Mkdirat(os, Cwd(os), name, TMP_MODE).1.Ok? && Fault(OpenOp, Resolve(Cwd(os), name).value) !in os.faults ==>
      r.1 == Open(Resolve(Cwd(os), name).value)
  {
    var os1 := Mkdirat(os, Cwd(os), name, TMP_MODE).0;
    var os2 := Chown(os1, name).0;
    var (os3, fd) := Openat(os2, Cwd(os2), name, ODirectory, 0);
    (os3, if fd.Ok? then fd.value else BadFd)
  }

  lemma IndexFromIs(s: seq<char>, c: char, from: nat, i: nat)
    requires from <= i < |s| && s[i] == c
    requires forall j :: from <= j < i ==> s[j] != c
    ensures IndexFrom(s, c, from) == i
    decreases i - from
  {
    if from < i {
      IndexFromIs(s, c, from + 1, i);
    }
  }

  /** The flag nftw(3) passes with each node. */
  datatype FtwFlag = FtwF | FtwD | FtwDnr | FtwDp | FtwNs | FtwSl | FtwSln

  /** The callback: FTW_D is removed with rmdir, FTW_F and FTW_SL with
      unlink; a failed removal or any other flag aborts with FL_ERMDIR. */
  function RemoveCallback(os: Os, fl: FlError, fileName: string, flag: FtwFlag): (r: Post)
    ensures r.ret == 0 || (r.ret == -1 && r.fl == ERmdir && r.os.fs == os.fs)
    ensures r.ret == 0 <==>
      (flag == FtwD && Rmdir(os, fileName).1.Ok?) ||
      ((flag == FtwF || flag == FtwSl) && Unlink(os, fileName).1.Ok?)
    ensures r.ret == 0 ==>
      (flag == FtwD || flag == FtwF || flag == FtwSl) && r.fl == fl &&
      Resolve(Cwd(os), fileName).Ok? && Resolve(Cwd(os), fileName).value in os.fs &&
      r.os.fs.Keys == os.fs.Keys - {Resolve(Cwd(os), fileName).value}
    ensures r.os.log == os.log + (if flag == FtwD then [Call(RmdirOp, fileName)]
                                 else if flag == FtwF || flag == FtwSl then [Call(UnlinkOp, fileName)]
                                 else [])
    ensures r.os.cwd == os.cwd && r.os.faults == os.faults
    ensures flag != FtwD ==> DirKeys(r.os.fs) == DirKeys(os.fs)
    ensures DirKeys(r.os.fs) <= DirKeys(os.fs)
    ensures WellFormed(os.fs) ==> WellFormed(r.os.fs)
  {
    if flag == FtwD then
      var (os', res) := Rmdir(os, fileName);
      if res.Fail? then Post(os', ERmdir, -1) else Post(os', fl, 0)
    else if flag == FtwF || flag == FtwSl then
      var (os', res) := Unlink(os, fileName);
      if res.Fail? then Post(os', ERmdir, -1) else Post(os', fl, 0)
    else
      Post(os, ERmdir, -1)
  }

  /** The course of a walk: machine, g_libfl_errno, nftw's return value and
      the callbacks made, in order. */
  datatype Walk = Walk(os: Os, fl: FlError, ret: int, calls: seq<(string, FtwFlag)>)

  function Visit(os: Os, fl: FlError, fileName: string, flag: FtwFlag): (w: Walk)
    ensures w.calls == [(fileName, flag)]
  {
    var r := RemoveCallback(os, fl, fileName, flag);
    Walk(r.os, r.fl, r.ret, [(fileName, flag)])
  }

  /** Runs `second` after `first`, keeping every callback in order. */
  function Then(first: Walk, second: Walk): Walk {
    Walk(second.os, second.fl, second.ret, first.calls + second.calls)
  }

  function BelowCount(os: Os, path: string): nat {
    match Resolve(Cwd(os), path)
    case Ok(p) => |DirsBelow(os.fs, p)|
    case Fail(_) => 0
  }

  ghost predicate NamesValid(names: seq<string>) {
    forall k :: 0 <= k < |names| ==> ValidName(names[k])
  }

  /** nftw's handling of a directory under FTW_DEPTH: its entries first,
      stopping at the first nonzero callback, then the directory itself as
      FTW_DP. An unreadable directory is reported as FTW_DNR. */
  function NftwDir(os: Os, fl: FlError, path: string): (w: Walk)
    requires WellFormed(os.fs)
    ensures WellFormed(w.os.fs) && DirKeys(w.os.fs) <= DirKeys(os.fs)
    ensures w.ret == 0 || w.ret == -1
    ensures w.os.cwd == os.cwd && w.os.faults == os.faults
    decreases BelowCount(os, path), 1, 0
  {
    var (os1, d) := Opendir(os, path);
    match d
    case Fail(e) => if e == EACCES then Visit(os1, fl, path, FtwDnr) else Walk(os1, fl, -1, [])
    case Ok(v) => NftwEntries(os1, fl, path, v.0, v.1, 0)
  }

  function NftwEntries(os: Os, fl: FlError, path: string, dp: Path, names: seq<string>, i: nat): (w: Walk)
    requires WellFormed(os.fs) && Resolve(Cwd(os), path) == Ok(dp)
    requires NamesValid(names) && i <= |names|
    ensures WellFormed(w.os.fs) && DirKeys(w.os.fs) <= DirKeys(os.fs)
    ensures w.ret == 0 || w.ret == -1
    ensures w.os.cwd == os.cwd && w.os.faults == os.faults
    decreases |DirsBelow(os.fs, dp)|, 0, |names| - i
  {
    if i == |names| then Visit(os, fl, path, FtwDp)
    else if names[i] == "." || names[i] == ".." then NftwEntries(os, fl, path, dp, names, i + 1)
    else
      var first := NftwEntry(os, fl, path, dp, names[i]);
      if first.ret != 0 then first
      else
        DirsBelowMono(os.fs, first.os.fs, dp);
        Then(first, NftwEntries(first.os, first.fl, path, dp, names, i + 1))
  }

  /** One entry `n` of the directory `path`: a subdirectory is walked,
      anything else is handed to the callback with the flag stat gives. */
  function NftwEntry(os: Os, fl: FlError, path: string, dp: Path, n: string): (w: Walk)
    requires WellFormed(os.fs) && Resolve(Cwd(os), path) == Ok(dp)
    requires ValidName(n) && n != "." && n != ".."
    ensures WellFormed(w.os.fs) && DirKeys(w.os.fs) <= DirKeys(os.fs)
    ensures w.ret == 0 || w.ret == -1
    ensures w.os.cwd == os.cwd && w.os.faults == os.faults
    decreases |DirsBelow(os.fs, dp)|, 0, 0
  {
    var child := path + "/" + n;
    ResolveChild(Cwd(os), path, n);
    match Stat(os, child)
    case Directory => DirsBelowShrink(os.fs, dp, n); NftwDir(os, fl, child)
    case LinkedDirectory => Visit(os, fl, child, FtwDp)
    case NonDirectory => Visit(os, fl, child, FtwF)
    case Dangling => Visit(os, fl, child, FtwSln)
    case Missing => Visit(os, fl, child, FtwNs)
  }

  /** The entry loop stops at the first entry whose walk returned nonzero,
      skips "." and "..", and reports the directory itself as FTW_DP once
      every entry has returned 0. */
  lemma NftwEntriesSteps(os: Os, fl: FlError, path: string, dp: Path, names: seq<string>, i: nat)
    requires WellFormed(os.fs) && Resolve(Cwd(os), path) == Ok(dp)
    requires NamesValid(names) && i <= |names|
    ensures i == |names| ==> NftwEntries(os, fl, path, dp, names, i) == Visit(os, fl, path, FtwDp)
    ensures i < |names| && (names[i] == "." || names[i] == "..") ==>
      NftwEntries(os, fl, path, dp, names, i) == NftwEntries(os, fl, path, dp, names, i + 1)
    ensures i < |names| && names[i] != "." && names[i] != ".." && NftwEntry(os, fl, path, dp, names[i]).ret != 0 ==>
      NftwEntries(os, fl, path, dp, names, i) == NftwEntry(os, fl, path, dp, names[i])
    ensures i < |names| && names[i] != "." && names[i] != ".." && NftwEntry(os, fl, path, dp, names[i]).ret == 0 ==>
      var first := NftwEntry(os, fl, path, dp, names[i]);
      NftwEntries(os, fl, path, dp, names, i) == Then(first, NftwEntries(first.os, first.fl, path, dp, names, i + 1))
  {
  }

  /** What one entry hands the callback, by what stat(2) says of it: a
      directory is walked, a file (or a link to one) is unlinked, and a
      link to a directory, a dangling link or a vanished entry aborts the
      walk with the machine unchanged. */
  lemma NftwEntryCases(os: Os, fl: FlError, path: string, dp: Path, n: string)
    requires WellFormed(os.fs) && Resolve(Cwd(os), path) == Ok(dp)
    requires ValidName(n) && n != "." && n != ".."
    ensures var child := path + "/" + n; var w := NftwEntry(os, fl, path, dp, n);
      Stat(os, child) == Directory ==> w == NftwDir(os, fl, child)
    ensures var child := path + "/" + n; var w := NftwEntry(os, fl, path, dp, n);
      Stat(os, child) == NonDirectory ==>
        w.calls == [(child, FtwF)] && (w.ret == 0 <==> Unlink(os, child).1.Ok?) &&
        w.os == Unlink(os, child).0
    ensures var child := path + "/" + n; var w := NftwEntry(os, fl, path, dp, n);
      Stat(os, child) == LinkedDirectory ==> w.calls == [(child, FtwDp)] && w.ret == -1 && w.os == os
    ensures var child := path + "/" + n; var w := NftwEntry(os, fl, path, dp, n);
      Stat(os, child) == Dangling ==> w.calls == [(child, FtwSln)] && w.ret == -1 && w.os == os
    ensures var child := path + "/" + n; var w := NftwEntry(os, fl, path, dp, n);
      Stat(os, child) == Missing ==> w.calls == [(child, FtwNs)] && w.ret == -1 && w.os == os
  {
  }

  /** nftw(path, callback, 64, FTW_DEPTH): no FTW_PHYS, so nodes are
      classified by stat(2), following links. */
  function Nftw(os: Os, fl: FlError, path: string): (w: Walk)
    requires WellFormed(os.fs)
    ensures WellFormed(w.os.fs)
  {
    match Stat(os, path)
    case Missing => Walk(os.(errno := ENOENT), fl, -1, [])
    case Directory => NftwDir(os, fl, path)
    case LinkedDirectory => Visit(os, fl, path, FtwDp)
    case NonDirectory => Visit(os, fl, path, FtwF)
    case Dangling => Visit(os, fl, path, FtwSln)
  }

  /** The course of a walk under this callback: it fails, removes no
      directory, and every callback but the last was handed a file. */
  ghost predicate Aborts(os: Os, fl: FlError, w: Walk) {
    w.ret == -1 && DirKeys(w.os.fs) == DirKeys(os.fs) &&
    (forall k :: 0 <= k < |w.calls| ==> w.calls[k].1 != FtwD && w.calls[k].1 != FtwSl) &&
    (forall k :: 0 <= k < |w.calls| - 1 ==> w.calls[k].1 == FtwF) &&
    (w.fl == ERmdir || w.fl == fl)
  }

  /** Under FTW_DEPTH nftw hands a directory over as FTW_DP, never FTW_D,
      and the callback aborts on FTW_DP: so walking a directory never
      calls rmdir, always ends in -1, and stops at the first directory,
      unreadable directory or other non-file it meets. */
  lemma {:induction false} NftwDirAborts(os: Os, fl: FlError, path: string)
    requires WellFormed(os.fs)
    ensures Aborts(os, fl, NftwDir(os, fl, path))
    decreases BelowCount(os, path), 1, 0
  {
    var (os1, d) := Opendir(os, path);
    if d.Ok? {
      NftwEntriesAborts(os1, fl, path, d.value.0, d.value.1, 0);
    }
  }

  lemma {:induction false} NftwEntriesAborts(os: Os, fl: FlError, path: string, dp: Path, names: seq<string>, i: nat)
    requires WellFormed(os.fs) && Resolve(Cwd(os), path) == Ok(dp)
    requires NamesValid(names) && i <= |names|
    ensures Aborts(os, fl, NftwEntries(os, fl, path, dp, names, i))
    decreases |DirsBelow(os.fs, dp)|, 0, |names| - i
  {
    if i == |names| {
    } else if names[i] == "." || names[i] == ".." {
      NftwEntriesAborts(os, fl, path, dp, names, i + 1);
    } else {
      var first := NftwEntry(os, fl, path, dp, names[i]);
      NftwEntryAborts(os, fl, path, dp, names[i]);
      if first.ret == 0 {
        DirsBelowMono(os.fs, first.os.fs, dp);
        NftwEntriesAborts(first.os, first.fl, path, dp, names, i + 1);
        var rest := NftwEntries(first.os, first.fl, path, dp, names, i + 1);
        assert NftwEntries(os, fl, path, dp, names, i) == Then(first, rest);
        ThenAborts(os, fl, first, rest);
      }
    }
  }

  /** An unlinked file followed by an aborted walk is an aborted walk. */
  lemma ThenAborts(os: Os, fl: FlError, first: Walk, rest: Walk)
    requires |first.calls| == 1 && first.calls[0].1 == FtwF
    requires first.fl == fl && DirKeys(first.os.fs) == DirKeys(os.fs)
    requires Aborts(first.os, first.fl, rest)
    ensures Aborts(os, fl, Then(first, rest))
  {
    var w := Then(first, rest);
    assert w.calls == [first.calls[0]] + rest.calls;
    forall k | 0 <= k < |w.calls| - 1 ensures w.calls[k].1 == FtwF {
      if k > 0 { assert w.calls[k] == rest.calls[k - 1]; }
    }
  }

  /** Only a file the callback unlinked lets the walk go on. */
  lemma {:induction false} NftwEntryAborts(os: Os, fl: FlError, path: string, dp: Path, n: string)
    requires WellFormed(os.fs) && Resolve(Cwd(os), path) == Ok(dp)
    requires ValidName(n) && n != "." && n != ".."
    ensures var w := NftwEntry(os, fl, path, dp, n);
      w.ret == 0 ==> w.calls == [(path + "/" + n, FtwF)] && w.fl == fl && DirKeys(w.os.fs) == DirKeys(os.fs)
    ensures var w := NftwEntry(os, fl, path, dp, n);
      w.ret != 0 ==> Aborts(os, fl, w)
    decreases |DirsBelow(os.fs, dp)|, 0, 0
  {
    var child := path + "/" + n;
    ResolveChild(Cwd(os), path, n);
    match Stat(os, child)
    case Directory =>
      DirsBelowShrink(os.fs, dp, n);
      NftwDirAborts(os, fl, child);
    case LinkedDirectory => VisitAborts(os, fl, child, FtwDp);
    case NonDirectory => VisitAborts(os, fl, child, FtwF);
    case Dangling => VisitAborts(os, fl, child, FtwSln);
    case Missing => VisitAborts(os, fl, child, FtwNs);
  }

  /** A node nftw hands over as anything but FTW_D or FTW_SL either is a
      file the callback unlinked, or aborts the walk. */
  lemma VisitAborts(os: Os, fl: FlError, name: string, flag: FtwFlag)
    requires flag != FtwD && flag != FtwSl
    ensures var w := Visit(os, fl, name, flag);
      w.ret == 0 ==> flag == FtwF && w.calls == [(name, FtwF)] && w.fl == fl && DirKeys(w.os.fs) == DirKeys(os.fs)
    ensures var w := Visit(os, fl, name, flag);
      w.ret != 0 ==> Aborts(os, fl, w)
  {
  }

  /** Cleanup of the scratch directory therefore never succeeds: whatever
      the tree holds, nftw returns -1 and every directory is still there. */
  lemma CleanupOfDirectoryFails(os: Os, fl: FlError, path: string)
    requires WellFormed(os.fs) && Stat(os, path) == Directory
    ensures Nftw(os, fl, path).ret == -1
    ensures DirKeys(Nftw(os, fl, path).os.fs) == DirKeys(os.fs)
    ensures Resolve(Cwd(os), path).value in DirKeys(Nftw(os, fl, path).os.fs)
  {
    NftwDirAborts(os, fl, path);
  }

  /** Where randpath starts and stops on the NUL-terminated template. */
  lemma TemplateLayout(text: seq<char>)
    requires text == PATH_TEMPLATE + ['\0']
    ensures |text| == 22 && text[..8] == PREFIX && text[21..] == ['\0']
    ensures text[8] == '@' && text[21] == '\0'
    ensures FillStart(text) == 8 && IndexFrom(text, '\0', 8) == 21
  {
    IndexFromIs(text, '@', 1, 8);
    IndexFromIs(text, '\0', 8, 21);
  }

  /** The stack copy of the template after randpath, read back as the C
      string that tmp_init hands to mkdir and strdup. */
  method FillTemplate(rand: seq<nat>) returns (name: string)
    requires |rand| >= FILL_LEN
    ensures name == TmpName(rand)
  {
    var text := PATH_TEMPLATE + ['\0'];
    TemplateLayout(text);
    var buf := new char[|text|](i requires 0 <= i < |text| => text[i]);
    assert buf[..] == text;
    Randpath(CARAND_TEMPLATE, buf, rand);
    name := CString(buf[..]);
  }

  class Tmp {
    var dirPath: string
    var dirFd: Handle

    /** The zeroed structure before tmp_init fills it. */
    constructor ()
      ensures dirPath == "" && dirFd == BadFd
    {
      dirPath := "";
      dirFd := BadFd;
    }

    /** libfl_io_tmp_init: fills the template with carand's draws, then
        mkdir (mode 777 decimal), chown and open the name, checking none of
        them, and keeps a copy of the name and the descriptor. */
    method Init(p: Process, rand: seq<nat>)
      requires p.Valid() && |rand| >= FILL_LEN
      modifies this, p
      ensures p.Valid() && p.flErrno == old(p.flErrno)
      ensures dirPath == TmpName(rand)
      ensures (p.os, dirFd) == TmpInitEffect(old(p.os), TmpName(rand))
    {
      var name := FillTemplate(rand);
      p.os := Mkdirat(p.os, Cwd(p.os), name, TMP_MODE).0;
      p.os := Chown(p.os, name).0;
      dirPath := name;
      var call := Openat(p.os, Cwd(p.os), name, ODirectory, 0);
      p.os := call.0;
      dirFd := if call.1.Ok? then call.1.value else BadFd;
    }

    /** libfl_io_tmp_cleanup: closes the descriptor first, then walks the
        tree, ignoring nftw's result. */
    method Cleanup(p: Process)
      requires p.Valid()
      modifies this, p
      ensures p.Valid() && dirPath == old(dirPath)
      ensures dirFd == Closing(old(dirFd))
      ensures var w := Nftw(Close(old(p.os), old(dirFd)), old(p.flErrno), dirPath);
              p.os == w.os && p.flErrno == w.fl
    {
      p.os := Close(p.os, dirFd);
      dirFd := Closing(dirFd);
      var w := Nftw(p.os, p.flErrno, dirPath);
      p.os, p.flErrno := w.os, w.fl;
    }
  }
}

=== FILE: kernel.dfy ===
/**
 * An abstract model of the operating-system surface that libfl uses: a
 * filesystem as a map from component paths to nodes, the C `errno` slot,
 * a log of the system calls issued, and an oracle of injected failures.
 * Every system call is a pure function from one `Os` value to the next.
 */
module Kernel {

  newtype byte = x: int | 0 <= x < 256

  /** A resolved path: the list of its components below "/". */
  type Path = seq<string>

  /** What a directory entry refers to. `names` is the directory's entry
      list in `readdir` order, "." and ".." included. */
  datatype Node =
    | Dir(names: seq<string>, mode: nat)
    | File(data: seq<byte>, mode: nat)
    | Link(target: string)
    | Other

  type Fs = map<Path, Node>

  /** The `errno` values the model distinguishes (ENONE stands for 0). */
  datatype Errno =
    ENONE | EEXIST | ENOENT | ENOTDIR | EISDIR | ELOOP | EBADF | EINVAL
    | ENOTEMPTY | EBUSY | ENXIO | EACCES | EIO | ENOSPC

  datatype Op =
    MkdirOp | OpenOp | ChmodOp | ChownOp | SendfileOp | SymlinkOp
    | ReadlinkOp | OpendirOp | RmdirOp | UnlinkOp

  /** One system call as issued: the operation and its path argument. */
  datatype Call = Call(op: Op, arg: string)

  /** A key of the failure oracle: the operation and the resolved path. */
  datatype Fault = Fault(op: Op, at: Path)

  /** A descriptor: never opened (-1), open on a node, or closed. */
  datatype Handle = BadFd | Open(path: Path) | Closed(path: Path)

  datatype Outcome<T> = Ok(value: T) | Fail(errno: Errno)

  /** `open` flags: O_DIRECTORY alone, or O_RDWR with optional O_CREAT and O_TRUNC. */
  datatype OpenFlags = ODirectory | ORdWr(creat: bool, trunc: bool)

  /** The machine: filesystem, errno, call log, working directory and the
      failure oracle (the last two never change). */
  datatype Os = Os(fs: Fs, errno: Errno, log: seq<Call>, cwd: Path, faults: map<Fault, Errno>)

  /** S_IFREG, the file-type bits `fstat` adds to a regular file's mode. */
  const S_IFREG: nat := 32768
  /** Permission bits are the mode modulo 0o10000. */
  const PERM_MODULUS: nat := 4096

  // ----------------------------------------------------------------------
  // Paths

  /** The pieces of `s` between slashes (C `strtok`-like, keeping empties). */
  function Split(s: string): (r: seq<string>)
    ensures |r| >= 1
    ensures forall i :: 0 <= i < |r| ==> '/' !in r[i]
    decreases |s|
  {
    if s == [] then [""]
    else if s[0] == '/' then [""] + Split(s[1..])
    else
      var t := Split(s[1..]);
      [[s[0]] + t[0]] + t[1..]
  }

  /** Drops the pieces that do not name a component ("" and "."). */
  function Keep(parts: seq<string>): (r: seq<string>)
    ensures forall i :: 0 <= i < |r| ==> r[i] != "" && r[i] != "." && r[i] in parts
  {
    if parts == [] then []
    else (if parts[0] == "" || parts[0] == "." then [] else [parts[0]]) + Keep(parts[1..])
  }

  /** The components of a path string: repeated slashes and "." do not count. */
  function Components(s: string): (r: Path)
    ensures forall i :: 0 <= i < |r| ==> ValidName(r[i]) && r[i] != "."
  {
    var parts := Split(s);
    var r := Keep(parts);
    assert forall i :: 0 <= i < |r| ==> r[i] in parts;
    r
  }

  /** A directory entry name as the filesystem stores it. */
  predicate ValidName(n: string) {
    n != "" && '/' !in n
  }

  lemma {:induction false} KeepAppend(a: seq<string>, b: seq<string>)
    ensures Keep(a + b) == Keep(a) + Keep(b)
  {
    if a != [] {
      assert (a + b)[1..] == a[1..] + b;
      KeepAppend(a[1..], b);
    } else {
      assert a + b == b;
    }
  }

  lemma {:induction false} SplitJoin(a: string, b: string)
    ensures Split(a + "/" + b) == Split(a) + Split(b)
    decreases |a|
  {
    if a == [] {
      assert a + "/" + b == "/" + b;
      assert ("/" + b)[1..] == b;
    } else {
      assert (a + "/" + b)[1..] == a[1..] + "/" + b;
      SplitJoin(a[1..], b);
    }
  }

  lemma {:induction false} SplitOfName(n: string)
    requires '/' !in n
    ensures Split(n) == [n]
    decreases |n|
  {
    if n != [] {
      assert '/' !in n[1..] by {
        forall k | 0 <= k < |n[1..]| ensures n[1..][k] != '/' { assert n[1..][k] == n[k + 1]; }
      }
      SplitOfName(n[1..]);
      assert [n[0]] + n[1..] == n;
    }
  }

  /** Appending "/" and a name to a path string appends that component. */
  lemma ComponentsJoin(a: string, n: string)
    requires ValidName(n) && n != "."
    ensures Components(a + "/" + n) == Components(a) + [n]
  {
    SplitJoin(a, n);
    SplitOfName(n);
    KeepAppend(Split(a), [n]);
    assert Keep([n]) == [n] by { assert [n][1..] == []; }
  }

  // ----------------------------------------------------------------------
  // Resolution and the failure oracle

  /** Resolves `s` against a directory descriptor, as the *at calls do: an
      empty path does not exist, an absolute path ignores the descriptor,
      a relative one needs an open descriptor. */
  function Resolve(at: Handle, s: string): (r: Outcome<Path>)
    ensures s == "" ==> r == Fail(ENOENT)
    ensures s != "" && s[0] == '/' ==> r == Ok(Components(s))
    ensures s != "" && s[0] != '/' && at.Open? ==> r == Ok(at.path + Components(s))
    ensures s != "" && s[0] != '/' && !at.Open? ==> r == Fail(EBADF)
  {
    if s == "" then Fail(ENOENT)
    else if s[0] == '/' then Ok(Components(s))
    else if at.Open? then Ok(at.path + Components(s))
    else Fail(EBADF)
  }

  /** The descriptor AT_FDCWD stands for. */
  function Cwd(os: Os): Handle {
    Open(os.cwd)
  }

  /** Resolution followed by the oracle's verdict on the call. */
  function Target(os: Os, at: Handle, op: Op, s: string): (r: Outcome<Path>)
    ensures r.Ok? ==> Resolve(at, s) == r && Fault(op, r.value) !in os.faults
  {
    match Resolve(at, s)
    case Fail(e) => Fail(e)
    case Ok(p) => if Fault(op, p) in os.faults then Fail(os.faults[Fault(op, p)]) else Ok(p)
  }

  /** Records a call and its effect: the new filesystem on success, the
      errno on failure (errno is left alone by a call that succeeds). */
  function Complete<T>(os: Os, call: Call, out: Outcome<(Fs, T)>): (r: (Os, Outcome<T>))
    ensures r.0.log == os.log + [call] && r.0.cwd == os.cwd && r.0.faults == os.faults
    ensures out.Ok? ==> r.0.fs == out.value.0 && r.0.errno == os.errno && r.1 == Ok(out.value.1)
    ensures out.Fail? ==> r.0.fs == os.fs && r.0.errno == out.errno && r.1 == Fail(out.errno)
  {
    match out
    case Ok(v) => (os.(fs := v.0, log := os.log + [call]), Ok(v.1))
    case Fail(e) => (os.(errno := e, log := os.log + [call]), Fail(e))
  }

  // ----------------------------------------------------------------------
  // Filesystem semantics

  ghost predicate WellFormed(fs: Fs) {
    forall p :: p in fs && fs[p].Dir? ==> forall i :: 0 <= i < |fs[p].names| ==> ValidName(fs[p].names[i])
  }

  ghost predicate WellFormedNode(node: Node) {
    node.Dir? ==> forall i :: 0 <= i < |node.names| ==> ValidName(node.names[i])
  }

  function DirKeys(fs: Fs): set<Path> {
    set p | p in fs && fs[p].Dir?
  }

  /** Adds a node at `p`: the entry must be new and its parent a directory. */
  function Create(fs: Fs, p: Path, node: Node): (r: Outcome<Fs>)
    ensures r.Ok? ==> |p| > 0 && p !in fs && r.value.Keys == fs.Keys + {p} && r.value[p] == node
    ensures r.Ok? ==> forall q :: q in fs && q != p[..|p| - 1] ==> r.value[q] == fs[q]
    ensures r.Ok? && !node.Dir? ==> DirKeys(r.value) == DirKeys(fs)
    ensures r.Ok? && WellFormed(fs) && WellFormedNode(node) ==> WellFormed(r.value)
    ensures p in fs ==> r == Fail(EEXIST)
  {
    if |p| == 0 || p in fs || p[|p| - 1] == ".." then Fail(EEXIST)
    else
      var parent := p[..|p| - 1];
      var name := p[|p| - 1];
      if parent !in fs then Fail(ENOENT)
      else if !fs[parent].Dir? then Fail(ENOTDIR)
      else if !ValidName(name) then Fail(EINVAL)
      else
        var d := fs[parent];
        var names' := d.names + [name];
        var r := fs[p := node][parent := Dir(names', d.mode)];
        assert DirKeys(r) == DirKeys(fs) + (if node.Dir? then {p} else {});
        assert WellFormed(fs) && WellFormedNode(node) ==> WellFormed(r) by {
          if WellFormed(fs) && WellFormedNode(node) {
            forall q | q in r && r[q].Dir?
              ensures forall i :: 0 <= i < |r[q].names| ==> ValidName(r[q].names[i])
            {
              if q == parent {
                assert forall i :: 0 <= i < |names'| ==> names'[i] == name || names'[i] in d.names;
              } else if q == p {
              }
            }
          }
        }
        Ok(r)
  }

  function Without(names: seq<string>, n: string): (r: seq<string>)
    ensures forall i :: 0 <= i < |r| ==> r[i] in names && r[i] != n
  {
    if names == [] then []
    else (if names[0] == n then [] else [names[0]]) + Without(names[1..], n)
  }

  /** Deletes the entry at `p` and its name from the parent's list. */
  function Remove(fs: Fs, p: Path): (r: Fs)
    requires |p| > 0
    ensures r.Keys == fs.Keys - {p}
    ensures DirKeys(r) == DirKeys(fs) - {p}
    ensures WellFormed(fs) ==> WellFormed(r)
  {
    var parent := p[..|p| - 1];
    var r := fs - {p};
    if parent in r && r[parent].Dir? then
      var d := r[parent];
      var r' := r[parent := Dir(Without(d.names, p[|p| - 1]), d.mode)];
      assert DirKeys(r') == DirKeys(fs) - {p};
      r'
    else
      assert DirKeys(r) == DirKeys(fs) - {p};
      r
  }

  /** The bytes `sendfile` leaves in the output file: `chunk` written at offset 0. */
  function Overwrite(old_data: seq<byte>, chunk: seq<byte>): (r: seq<byte>)
    ensures |r| == if |chunk| <= |old_data| then |old_data| else |chunk|
    ensures r[..|chunk|] == chunk && r[|chunk|..] == old_data[if |chunk| <= |old_data| then |chunk| else |old_data|..]
  {
    if |chunk| <= |old_data| then chunk + old_data[|chunk|..] else chunk
  }

  // ----------------------------------------------------------------------
  // System calls

  /** mkdirat(2) */
  function Mkdirat(os: Os, at: Handle, s: string, mode: nat): (r: (Os, Outcome<()>))
    ensures r.0.log == os.log + [Call(MkdirOp, s)] && r.0.cwd == os.cwd && r.0.faults == os.faults
    ensures r.1.Ok? <==> Target(os, at, MkdirOp, s).Ok? && Create(os.fs, Target(os, at, MkdirOp, s).value, Dir([".", ".."], mode % PERM_MODULUS)).Ok?
    ensures r.1.Ok? ==> r.0.errno == os.errno && Resolve(at, s).value in r.0.fs && r.0.fs[Resolve(at, s).value].Dir?
    ensures r.1.Fail? ==> r.0.fs == os.fs && r.0.errno == r.1.errno
    ensures os.fs.Keys <= r.0.fs.Keys
    ensures Resolve(at, s).Ok? && Resolve(at, s).value in os.fs && Fault(MkdirOp, Resolve(at, s).value) !in os.faults ==> r.1 == Fail(EEXIST)
    ensures WellFormed(os.fs) ==> WellFormed(r.0.fs)
  {
    Complete(os, Call(MkdirOp, s),
      match Target(os, at, MkdirOp, s)
      case Fail(e) => Fail(e)
      case Ok(p) =>
        match Create(os.fs, p, Dir([".", ".."], mode % PERM_MODULUS))
        case Fail(e) => Fail(e)
        case Ok(fs) => Ok((fs, ())))
  }

  function OpenFs(fs: Fs, p: Path, flags: OpenFlags, mode: nat): (r: Outcome<(Fs, Handle)>)
    ensures r.Ok? ==> r.value.1 == Open(p) && p in r.value.0
    ensures r.Ok? && flags.ORdWr? ==> r.value.0[p].File?
    ensures r.Ok? && flags.ODirectory? ==> r.value.0 == fs && fs[p].Dir?
    ensures r.Ok? ==> DirKeys(r.value.0) == DirKeys(fs)
    ensures r.Ok? && WellFormed(fs) ==> WellFormed(r.value.0)
    ensures r.Ok? && p in fs && flags.ORdWr? ==>
      fs[p].File? && r.value.0 == if flags.trunc then fs[p := File([], fs[p].mode)] else fs
    ensures r.Ok? && p !in fs ==>
      flags.ORdWr? && flags.creat && Create(fs, p, File([], mode % PERM_MODULUS)) == Ok(r.value.0)
  {
    if p in fs then
      var node := fs[p];
      match flags
      case ODirectory => if node.Dir? then Ok((fs, Open(p))) else Fail(ENOTDIR)
      case ORdWr(_, trunc) =>
        match node
        case Dir(_, _) => Fail(EISDIR)
        case Link(_) => Fail(ELOOP)
        case Other => Fail(ENXIO)
        case File(data, m) =>
          if trunc then
            var fs' := fs[p := File([], m)];
            assert DirKeys(fs') == DirKeys(fs);
            Ok((fs', Open(p)))
          else Ok((fs, Open(p)))
    else if flags.ODirectory? || !flags.creat then Fail(ENOENT)
    else
      match Create(fs, p, File([], mode % PERM_MODULUS))
      case Fail(e) => Fail(e)
      case Ok(fs') => Ok((fs', Open(p)))
  }

  /** openat(2); a symbolic link is not followed (as with O_NOFOLLOW). */
  function Openat(os: Os, at: Handle, s: string, flags: OpenFlags, mode: nat): (r: (Os, Outcome<Handle>))
    ensures r.0.log == os.log + [Call(OpenOp, s)] && r.0.cwd == os.cwd && r.0.faults == os.faults
    ensures r.1.Ok? ==> Target(os, at, OpenOp, s).Ok? && r.0.errno == os.errno && r.1.value == Open(Resolve(at, s).value)
    ensures r.1.Ok? ==> r.1.value.path in r.0.fs
    ensures r.1.Ok? && flags.ORdWr? ==> r.0.fs[r.1.value.path].File?
    ensures r.1.Ok? ==> OpenFs(os.fs, r.1.value.path, flags, mode) == Ok((r.0.fs, r.1.value))
    ensures r.1.Fail? ==> r.0.fs == os.fs && r.0.errno == r.1.errno
    ensures DirKeys(r.0.fs) == DirKeys(os.fs)
    ensures WellFormed(os.fs) ==> WellFormed(r.0.fs)
  {
    Complete(os, Call(OpenOp, s),
      match Target(os, at, OpenOp, s)
      case Fail(e) => Fail(e)
      case Ok(p) => OpenFs(os.fs, p, flags, mode))
  }

  /** fstat(2) on an open descriptor: (st_size, st_mode). */
  function Fstat(os: Os, h: Handle): (r: (nat, nat))
    ensures h.Open? && h.path in os.fs && os.fs[h.path].File? ==>
      r == (|os.fs[h.path].data|, S_IFREG + os.fs[h.path].mode)
  {
    if h.Open? && h.path in os.fs && os.fs[h.path].File? then
      (|os.fs[h.path].data|, S_IFREG + os.fs[h.path].mode)
    else (0, 0)
  }

  function ChmodFs(fs: Fs, p: Path, mode: nat): (r: Outcome<(Fs, ())>)
    ensures r.Ok? ==> r.value.0.Keys == fs.Keys && DirKeys(r.value.0) == DirKeys(fs)
    ensures r.Ok? ==> forall q :: q in fs && q != p ==> r.value.0[q] == fs[q]
    ensures r.Ok? ==> p in fs
    ensures r.Ok? && fs[p].File? ==> r.value.0[p] == File(fs[p].data, mode % PERM_MODULUS)
    ensures r.Ok? && WellFormed(fs) ==> WellFormed(r.value.0)
  {
    if p !in fs then Fail(ENOENT)
    else
      match fs[p]
      case Link(_) => Fail(ELOOP)
      case Other => Ok((fs, ()))
      case Dir(names, _) =>
        var fs' := fs[p := Dir(names, mode % PERM_MODULUS)];
        assert DirKeys(fs') == DirKeys(fs);
        Ok((fs', ()))
      case File(data, _) =>
        var fs' := fs[p := File(data, mode % PERM_MODULUS)];
        assert DirKeys(fs') == DirKeys(fs);
        Ok((fs', ()))
  }

  /** chmod(2): a path resolved against the working directory. */
  function Chmod(os: Os, s: string, mode: nat): (r: (Os, Outcome<()>))
    ensures r.0.log == os.log + [Call(ChmodOp, s)] && r.0.cwd == os.cwd && r.0.faults == os.faults
    ensures r.1.Ok? ==> r.0.errno == os.errno && Target(os, Cwd(os), ChmodOp, s).Ok?
    ensures r.0.fs.Keys == os.fs.Keys && DirKeys(r.0.fs) == DirKeys(os.fs)
    ensures r.1.Ok? ==> Resolve(Cwd(os), s).value in os.fs
    ensures r.1.Ok? ==> forall q :: q in os.fs && q != Resolve(Cwd(os), s).value ==> r.0.fs[q] == os.fs[q]
    ensures r.1.Ok? && os.fs[Resolve(Cwd(os), s).value].File? ==>
      r.0.fs[Resolve(Cwd(os), s).value] == File(os.fs[Resolve(Cwd(os), s).value].data, mode % PERM_MODULUS)
    ensures r.1.Fail? ==> r.0.fs == os.fs && r.0.errno == r.1.errno
    ensures WellFormed(os.fs) ==> WellFormed(r.0.fs)
  {
    Complete(os, Call(ChmodOp, s),
      match Target(os, Cwd(os), ChmodOp, s)
      case Fail(e) => Fail(e)
      case Ok(p) => ChmodFs(os.fs, p, mode))
  }

  /** chown(2): ownership is not part of the model, so only the call and
      its possible failure are recorded. */
  function Chown(os: Os, s: string): (r: (Os, Outcome<()>))
    ensures r.0.log == os.log + [Call(ChownOp, s)] && r.0.fs == os.fs
  {
    Complete(os, Call(ChownOp, s),
      match Target(os, Cwd(os), ChownOp, s)
      case Fail(e) => Fail(e)
      case Ok(p) => if p in os.fs then Ok((os.fs, ())) else Fail(ENOENT))
  }

  /** sendfile(2) with a NULL offset: copies up to `count` bytes from the
      start of `input` over the start of `output`; returns the byte count. */
  function Sendfile(os: Os, output: Handle, input: Handle, count: nat): (r: (Os, Outcome<nat>))
    ensures r.0.log == os.log + [Call(SendfileOp, "")] && r.0.cwd == os.cwd && r.0.faults == os.faults
    ensures r.1.Ok? ==> r.0.errno == os.errno && output.Open? && input.Open?
    ensures r.1.Ok? ==> output.path in os.fs && input.path in os.fs && os.fs[output.path].File? && os.fs[input.path].File?
    ensures r.1.Ok? ==>
      var src := os.fs[input.path].data;
      var n := if count <= |src| then count else |src|;
      r.1.value == n &&
      r.0.fs == os.fs[output.path := File(Overwrite(os.fs[output.path].data, src[..n]), os.fs[output.path].mode)]
    ensures r.1.Fail? ==> r.0.fs == os.fs && r.0.errno == r.1.errno
    ensures r.0.fs.Keys == os.fs.Keys && DirKeys(r.0.fs) == DirKeys(os.fs)
    ensures WellFormed(os.fs) ==> WellFormed(r.0.fs)
  {
    var call := Call(SendfileOp, "");
    if !output.Open? || !input.Open? || output.path !in os.fs || input.path !in os.fs
       || !os.fs[output.path].File? || !os.fs[input.path].File? then
      Complete(os, call, Fail(EBADF))
    else if Fault(SendfileOp, output.path) in os.faults then
      Complete(os, call, Fail(os.faults[Fault(SendfileOp, output.path)]))
    else
      var src := os.fs[input.path].data;
      var n := if count <= |src| then count else |src|;
      var dst := os.fs[output.path];
      var fs' := os.fs[output.path := File(Overwrite(dst.data, src[..n]), dst.mode)];
      assert DirKeys(fs') == DirKeys(os.fs);
      Complete(os, call, Ok((fs', n)))
  }

  /** symlinkat(2): a link whose target text is stored verbatim. */
  function Symlinkat(os: Os, target: string, at: Handle, s: string): (r: (Os, Outcome<()>))
    ensures r.0.log == os.log + [Call(SymlinkOp, s)] && r.0.cwd == os.cwd && r.0.faults == os.faults
    ensures r.1.Ok? ==> r.0.errno == os.errno && Resolve(at, s).Ok? && Resolve(at, s).value !in os.fs
    ensures r.1.Ok? ==> Resolve(at, s).value in r.0.fs && r.0.fs[Resolve(at, s).value] == Link(target)
    ensures r.1.Fail? ==> r.0.fs == os.fs && r.0.errno == r.1.errno
    ensures DirKeys(r.0.fs) == DirKeys(os.fs)
    ensures WellFormed(os.fs) ==> WellFormed(r.0.fs)
  {
    Complete(os, Call(SymlinkOp, s),
      match Target(os, at, SymlinkOp, s)
      case Fail(e) => Fail(e)
      case Ok(p) =>
        match Create(os.fs, p, Link(target))
        case Fail(e) => Fail(e)
        case Ok(fs) => Ok((fs, ())))
  }

  /** readlinkat(2): the stored target text of a link. */
  function Readlinkat(os: Os, at: Handle, s: string): (r: (Os, Outcome<string>))
    ensures r.0.log == os.log + [Call(ReadlinkOp, s)] && r.0.fs == os.fs && r.0.cwd == os.cwd && r.0.faults == os.faults
    ensures r.1.Ok? ==> (r.0.errno == os.errno && Resolve(at, s).Ok? &&
      Resolve(at, s).value in os.fs && os.fs[Resolve(at, s).value] == Link(r.1.value))
    ensures r.1.Fail? ==> r.0.errno == r.1.errno
  {
    Complete(os, Call(ReadlinkOp, s),
      match Target(os, at, ReadlinkOp, s)
      case Fail(e) => Fail(e)
      case Ok(p) =>
        if p !in os.fs then Fail(ENOENT)
        else if os.fs[p].Link? then Ok((os.fs, os.fs[p].target))
        else Fail(EINVAL))
  }

  /** opendir(3): the resolved directory and its entry list at this moment. */
  function Opendir(os: Os, s: string): (r: (Os, Outcome<(Path, seq<string>)>))
    ensures r.0.log == os.log + [Call(OpendirOp, s)] && r.0.fs == os.fs && r.0.cwd == os.cwd && r.0.faults == os.faults
    ensures r.1.Ok? ==> (r.0.errno == os.errno && Resolve(Cwd(os), s) == Ok(r.1.value.0) &&
      r.1.value.0 in os.fs && os.fs[r.1.value.0].Dir? && r.1.value.1 == os.fs[r.1.value.0].names)
    ensures r.1.Fail? ==> r.0.errno == r.1.errno
  {
    Complete(os, Call(OpendirOp, s),
      match Target(os, Cwd(os), OpendirOp, s)
      case Fail(e) => Fail(e)
      case Ok(p) =>
        if p !in os.fs then Fail(ENOENT)
        else if os.fs[p].Dir? then Ok((os.fs, (p, os.fs[p].names)))
        else Fail(ENOTDIR))
  }

  /** rmdir(2): only an empty directory other than "/" can be removed. */
  function Rmdir(os: Os, s: string): (r: (Os, Outcome<()>))
    ensures r.0.log == os.log + [Call(RmdirOp, s)] && r.0.cwd == os.cwd && r.0.faults == os.faults
    ensures r.1.Ok? ==> (r.0.errno == os.errno && Resolve(Cwd(os), s).Ok? &&
      var p := Resolve(Cwd(os), s).value; p in os.fs && os.fs[p].Dir? && r.0.fs.Keys == os.fs.Keys - {p})
    ensures r.1.Fail? ==> r.0.fs == os.fs && r.0.errno == r.1.errno
    ensures DirKeys(r.0.fs) <= DirKeys(os.fs)
    ensures WellFormed(os.fs) ==> WellFormed(r.0.fs)
  {
    Complete(os, Call(RmdirOp, s),
      match Target(os, Cwd(os), RmdirOp, s)
      case Fail(e) => Fail(e)
      case Ok(p) =>
        if p !in os.fs then Fail(ENOENT)
        else if !os.fs[p].Dir? then Fail(ENOTDIR)
        else if |p| == 0 then Fail(EBUSY)
        else if exists i :: 0 <= i < |os.fs[p].names| && os.fs[p].names[i] != "." && os.fs[p].names[i] != ".." then Fail(ENOTEMPTY)
        else Ok((Remove(os.fs, p), ())))
  }

  /** unlink(2): removes a non-directory entry (a link itself, not its target). */
  function Unlink(os: Os, s: string): (r: (Os, Outcome<()>))
    ensures r.0.log == os.log + [Call(UnlinkOp, s)] && r.0.cwd == os.cwd && r.0.faults == os.faults
    ensures r.1.Ok? ==> (r.0.errno == os.errno && Resolve(Cwd(os), s).Ok? &&
      var p := Resolve(Cwd(os), s).value; p in os.fs && !os.fs[p].Dir? && r.0.fs.Keys == os.fs.Keys - {p})
    ensures r.1.Fail? ==> r.0.fs == os.fs && r.0.errno == r.1.errno
    ensures DirKeys(r.0.fs) == DirKeys(os.fs)
    ensures WellFormed(os.fs) ==> WellFormed(r.0.fs)
  {
    Complete(os, Call(UnlinkOp, s),
      match Target(os, Cwd(os), UnlinkOp, s)
      case Fail(e) => Fail(e)
      case Ok(p) =>
        if p !in os.fs then Fail(ENOENT)
        else if os.fs[p].Dir? || |p| == 0 then Fail(EISDIR)
        else Ok((Remove(os.fs, p), ())))
  }

  /** close(2): closing anything but an open descriptor sets EBADF. */
  function Close(os: Os, h: Handle): (r: Os)
    ensures r.fs == os.fs && r.log == os.log && r.cwd == os.cwd && r.faults == os.faults
    ensures r.errno == if h.Open? then os.errno else EBADF
  {
    if h.Open? then os else os.(errno := EBADF)
  }

  /** The handle a descriptor variable holds after close(2). */
  function Closing(h: Handle): Handle {
    if h.Open? then Closed(h.path) else h
  }

  // ----------------------------------------------------------------------
  // dirname(3), as POSIX.1-2017 describes it

  function DropTrailingSlashes(s: string): (r: string)
    ensures |r| <= |s| && r == s[..|r|]
    ensures r == [] || r[|r| - 1] != '/'
    ensures forall i :: |r| <= i < |s| ==> s[i] == '/'
  {
    if s != [] && s[|s| - 1] == '/' then DropTrailingSlashes(s[..|s| - 1]) else s
  }

  function LastSlash(s: string): (i: nat)
    requires '/' in s
    ensures i < |s| && s[i] == '/' && forall j :: i < j < |s| ==> s[j] != '/'
  {
    if s[|s| - 1] == '/' then |s| - 1
    else
      assert '/' in s[..|s| - 1] by {
        var k :| 0 <= k < |s| && s[k] == '/';
        assert s[..|s| - 1][k] == '/';
      }
      LastSlash(s[..|s| - 1])
  }

  /** dirname(3): the path with its last component and trailing slashes removed. */
  function Dirname(s: string): (r: string)
    ensures r != ""
    ensures r == "." || r == "/" || (|r| < |s| && r == s[..|r|] && r[|r| - 1] != '/')
  {
    var t := DropTrailingSlashes(s);
    if s == "" then "."
    else if t == "" then "/"
    else if '/' !in t then "."
    else
      var u := DropTrailingSlashes(t[..LastSlash(t)]);
      if u == "" then "/" else u
  }

  // ----------------------------------------------------------------------
  // Directory structure seen by the tree walks

  /** The directories strictly below `d`. */
  function DirsBelow(fs: Fs, d: Path): set<Path> {
    set q | q in DirKeys(fs) && |q| > |d| && q[..|d|] == d
  }

  /** A subdirectory has fewer directories below it than its parent. */
  lemma DirsBelowShrink(fs: Fs, d: Path, n: string)
    requires d + [n] in DirKeys(fs)
    ensures |DirsBelow(fs, d + [n])| < |DirsBelow(fs, d)|
  {
    var c := d + [n];
    forall q | q in DirsBelow(fs, c) ensures q in DirsBelow(fs, d) {
      assert q[..|d|] == q[..|c|][..|d|];
    }
    assert c in DirsBelow(fs, d) && c !in DirsBelow(fs, c);
    SubsetCard(DirsBelow(fs, c), DirsBelow(fs, d));
  }

  lemma SubsetCard<T>(a: set<T>, b: set<T>)
    requires a <= b
    ensures |a| <= |b|
    ensures a < b ==> |a| < |b|
  {
    assert b == a + (b - a);
    assert a !! (b - a);
    if a < b {
      var x :| x in b && x !in a;
      assert x in b - a;
    }
  }

  /** Removing directories never adds any below a given one. */
  lemma DirsBelowMono(fs: Fs, fs': Fs, d: Path)
    requires DirKeys(fs') <= DirKeys(fs)
    ensures |DirsBelow(fs', d)| <= |DirsBelow(fs, d)|
  {
    SubsetCard(DirsBelow(fs', d), DirsBelow(fs, d));
  }

  /** Resolving `path/name` appends `name` to what `path` resolves to. */
  lemma ResolveChild(at: Handle, path: string, n: string)
    requires Resolve(at, path).Ok? && ValidName(n) && n != "."
    ensures Resolve(at, path + "/" + n) == Ok(Resolve(at, path).value + [n])
  {
    ComponentsJoin(path, n);
    assert path != "";
    assert (path + "/" + n)[0] == path[0];
    if path[0] != '/' {
      assert at.path + (Components(path) + [n]) == (at.path + Components(path)) + [n];
    }
  }

  /** The file type a directory entry reports (d_type): the entry itself,
      not what a link points to. */
  datatype DirentType = DtDir | DtReg | DtLnk | DtOther

  function DType(fs: Fs, p: Path): DirentType {
    if p !in fs then DtOther
    else match fs[p]
      case Dir(_, _) => DtDir
      case File(_, _) => DtReg
      case Link(_) => DtLnk
      case Other => DtOther
  }

  /** What stat(2) says of a path, following one link: a link whose target
      is itself a link counts as dangling. */
  datatype StatKind = Missing | Dangling | Directory | LinkedDirectory | NonDirectory

  function Stat(os: Os, s: string): (k: StatKind)
    ensures k == Directory ==> Resolve(Cwd(os), s).Ok? && Resolve(Cwd(os), s).value in DirKeys(os.fs)
  {
    match Resolve(Cwd(os), s)
    case Fail(_) => Missing
    case Ok(p) =>
      if p !in os.fs then Missing
      else match os.fs[p]
        case Dir(_, _) => Directory
        case File(_, _) => NonDirectory
        case Other => NonDirectory
        case Link(t) =>
          var base := if |p| > 0 then p[..|p| - 1] else p;
          match Resolve(Open(base), t)
          case Fail(_) => Dangling
          case Ok(q) =>
            if q !in os.fs || os.fs[q].Link? then Dangling
            else if os.fs[q].Dir? then LinkedDirectory
            else NonDirectory
  }
}

=== FILE: misc.dfy ===
/**
 * The library's error codes and its small buffer helpers: `carand` fills a
 * buffer from an alphabet, `randpath` fills the run of '@' in a path
 * template, `memdup` copies a buffer. Randomness is an input: the sequence
 * of values `random()` would return.
 */
module Misc {
  import opened Kernel

  /** The codes g_libfl_errno takes, in the order of the library's enum. */
  datatype FlError =
    EOk | EAlloc | EMkdir | EOpendir | ESymlink | EOpenfile | ESendfile | EStat | ERmdir | EMaptoobig

  /** The characters `carand` writes for the draws `rand`, in order: draw
      `k` picks `alphabet[rand[k] % |alphabet|]`. */
  function Fill(alphabet: seq<char>, rand: seq<nat>): (r: seq<char>)
    requires |alphabet| > 0
    ensures |r| == |rand|
    ensures forall i :: 0 <= i < |r| ==> r[i] in alphabet
  {
    if rand == [] then []
    else Fill(alphabet, rand[..|rand| - 1]) + [alphabet[rand[|rand| - 1] % |alphabet|]]
  }

  /** Each character of the fill is the alphabet entry its own draw selects. */
  lemma {:induction false} FillAt(alphabet: seq<char>, rand: seq<nat>, i: nat)
    requires |alphabet| > 0 && i < |rand|
    ensures Fill(alphabet, rand)[i] == alphabet[rand[i] % |alphabet|]
    decreases |rand|
  {
    if i < |rand| - 1 {
      FillAt(alphabet, rand[..|rand| - 1], i);
    }
  }

  /** The first index at or after `from` holding `c`. */
  function IndexFrom(s: seq<char>, c: char, from: nat): (i: nat)
    requires exists j :: from <= j < |s| && s[j] == c
    ensures from <= i < |s| && s[i] == c
    ensures forall j :: from <= j < i ==> s[j] != c
    decreases |s| - from
  {
    if s[from] == c then from else IndexFrom(s, c, from + 1)
  }

  /** The C string held by a buffer: its characters before the first NUL. */
  function CString(buf: seq<char>): (r: string)
    ensures '\0' !in r
    ensures |r| <= |buf| && r == buf[..|r|]
    ensures |r| < |buf| ==> buf[|r|] == '\0'
  {
    if buf == [] || buf[0] == '\0' then []
    else
      var t := CString(buf[1..]);
      assert buf[..|t| + 1] == [buf[0]] + buf[1..][..|t|];
      [buf[0]] + t
  }

  /** A buffer whose first NUL is at `n` holds the C string `buf[..n]`. */
  lemma {:induction false} CStringUpTo(buf: seq<char>, n: nat)
    requires n < |buf| && buf[n] == '\0' && '\0' !in buf[..n]
    ensures CString(buf) == buf[..n]
  {
    if n > 0 {
      assert buf[0] == buf[..n][0];
      assert '\0' !in buf[1..][..n - 1] by {
        assert buf[1..][..n - 1] == buf[..n][1..];
      }
      CStringUpTo(buf[1..], n - 1);
      assert buf[..n] == [buf[0]] + buf[1..][..n - 1];
    }
  }

  /** carand: writes `resultLen` alphabet characters at `result[offset..]`
      (a `char *` into a buffer is the buffer and an offset). */
  method Carand(template: seq<char>, result: array<char>, offset: nat, resultLen: nat, rand: seq<nat>)
    requires |template| > 0
    requires offset + resultLen <= result.Length
    requires |rand| >= resultLen
    modifies result
    ensures result[..offset] == old(result[..offset])
    ensures result[offset..offset + resultLen] == Fill(template, rand[..resultLen])
    ensures result[offset + resultLen..] == old(result[offset + resultLen..])
  {
    var i := 0;
    while i < resultLen
      invariant 0 <= i <= resultLen
      invariant result[..offset] == old(result[..offset])
      invariant result[offset..offset + i] == Fill(template, rand[..i])
      invariant result[offset + i..] == old(result[offset + i..])
    {
      result[offset + i] := template[rand[i] % |template|];
      assert rand[..i + 1][..i] == rand[..i];
      assert result[offset..offset + i + 1] == result[offset..offset + i] + [result[offset + i]];
      i := i + 1;
    }
  }

  /** The position randpath fills from: the first '@' after index 0. */
  function FillStart(path: seq<char>): (j: nat)
    requires exists j :: 1 <= j < |path| && path[j] == '@'
    ensures 1 <= j < |path| && path[j] == '@'
  {
    IndexFrom(path, '@', 1)
  }

  /** The pointer walk of randpath: step past index 0 until an '@'. The
      loop test is a non-null pointer, so only the '@' stops it. */
  method FindFill(path: array<char>) returns (m: nat)
    requires exists j :: 1 <= j < path.Length && path[j] == '@'
    ensures m == FillStart(path[..])
  {
    m := 0;
    while true
      invariant 0 <= m < FillStart(path[..])
      invariant forall k :: 1 <= k <= m ==> path[k] != '@'
      decreases FillStart(path[..]) - m
    {
      m := m + 1;
      if path[m] == '@' {
        return;
      }
    }
  }

  /** strlen of the C string that starts at `from`. */
  method Strlen(path: array<char>, from: nat) returns (len: nat)
    requires exists k :: from <= k < path.Length && path[k] == '\0'
    ensures len == IndexFrom(path[..], '\0', from) - from
  {
    len := 0;
    while path[from + len] != '\0'
      invariant from + len <= IndexFrom(path[..], '\0', from)
      decreases IndexFrom(path[..], '\0', from) - (from + len)
    {
      len := len + 1;
    }
  }

  /** randpath: fills `strlen` characters from the first '@' after index 0.
      The scan has no bound of its own, so the template must hold such an
      '@' followed, somewhere, by the terminating NUL. */
  method Randpath(template: seq<char>, path: array<char>, rand: seq<nat>)
    requires |template| > 0
    requires exists j :: 1 <= j < path.Length && path[j] == '@'
    requires exists k :: FillStart(path[..]) <= k < path.Length && path[k] == '\0'
    requires |rand| >= IndexFrom(path[..], '\0', FillStart(path[..])) - FillStart(path[..])
    modifies path
    ensures var j := FillStart(old(path[..]));
            var n := IndexFrom(old(path[..]), '\0', j) - j;
            path[..] == old(path[..j]) + Fill(template, rand[..n]) + old(path[j + n..])
  {
    ghost var before := path[..];
    var m := FindFill(path);
    var len := Strlen(path, m);
    Carand(template, path, m, len, rand);
    ghost var after := path[..];
    SplitThree(after, m, m + len);
    assert after[..m] == before[..m] && after[m + len..] == before[m + len..];
  }

  /** A sequence is its three slices around positions i <= j. */
  lemma SplitThree<T>(s: seq<T>, i: nat, j: nat)
    requires i <= j <= |s|
    ensures s == s[..i] + s[i..j] + s[j..]
  {
  }

  /** memdup: a fresh copy of `data[..len]`, or null when allocation fails
      (`allocOk` is the allocator's answer; g_libfl_errno is not touched). */
  method Memdup(data: array<byte>, len: nat, allocOk: bool) returns (r: array?<byte>)
    requires len <= data.Length
    ensures !allocOk ==> r == null
    ensures allocOk ==> r != null && fresh(r) && r[..] == data[..len]
  {
    if !allocOk {
      return null;
    }
    var copy := new byte[len];
    forall i | 0 <= i < len {
      copy[i] := data[i];
    }
    return copy;
  }
}

=== FILE: transact.dfy ===
/**
 * The staged transaction (transact.c): files are prepared under the
 * scratch directory and `commit` copies the staged tree over the
 * effective root. The C `libfl_transact_t *` is the class `Transact`; the
 * operations that only issue system calls are specified by functions from
 * the machine before to the machine after, which the methods implement.
 */
module Transact {
  import opened Kernel
  import opened Misc
  import opened Context
  import opened Io

  datatype Option<T> = None | Some(value: T)

  /** S_IRWXU | S_IRGRP | S_IXGRP | S_IROTH | S_IXOTH, that is 0o755. */
  const DIR_MODE: nat := 493
  /** PATH_MAX, the size of copy_link's target buffer. */
  const PATH_MAX: nat := 4096

  // ----------------------------------------------------------------------
  // recursive_mkdir

  /** The positions in [i, j) of `s` that hold a slash, in order. */
  function Slashes(s: string, i: nat, j: nat): (r: seq<nat>)
    requires i <= j <= |s|
    ensures forall k :: 0 <= k < |r| ==> i <= r[k] < j && s[r[k]] == '/'
    decreases j - i
  {
    if i == j then []
    else (if s[i] == '/' then [i] else []) + Slashes(s, i + 1, j)
  }

  /** Slashes misses no slash of [i, j). */
  lemma {:induction false} SlashesComplete(s: string, i: nat, j: nat)
    requires i <= j <= |s|
    ensures forall k :: i <= k < j && s[k] == '/' ==> k in Slashes(s, i, j)
    decreases j - i
  {
    if i < j {
      SlashesComplete(s, i + 1, j);
      var head: seq<nat> := if s[i] == '/' then [i] else [];
      assert Slashes(s, i, j) == head + Slashes(s, i + 1, j);
    }
  }

  /** Slashes lists the positions in strictly increasing order, so each
      one once. */
  lemma {:induction false} SlashesIncreasing(s: string, i: nat, j: nat)
    requires i <= j <= |s|
    ensures Increasing(Slashes(s, i, j))
    decreases j - i
  {
    if i < j {
      SlashesIncreasing(s, i + 1, j);
      var rest := Slashes(s, i + 1, j);
      if s[i] == '/' {
        assert Slashes(s, i, j) == [i] + rest;
        IncreasingCons(i, rest);
      } else {
        assert Slashes(s, i, j) == [] + rest;
      }
    }
  }

  /** Strictly increasing, hence without repeats. */
  predicate Increasing(xs: seq<nat>) {
    forall a, b :: 0 <= a < b < |xs| ==> xs[a] < xs[b]
  }

  /** A position below all of an increasing list can go in front. */
  lemma IncreasingCons(x: nat, xs: seq<nat>)
    requires Increasing(xs) && forall k :: 0 <= k < |xs| ==> x < xs[k]
    ensures Increasing([x] + xs)
  {
    var r := [x] + xs;
    forall a, b | 0 <= a < b < |r| ensures r[a] < r[b] {
      assert r[b] == xs[b - 1];
      if a > 0 {
        assert r[a] == xs[a - 1];
      }
    }
  }

  /** The mkdirat calls made for the slash positions `ks` of `s`. */
  function MkdirCalls(s: string, ks: seq<nat>): (r: seq<Call>)
    requires forall k :: 0 <= k < |ks| ==> ks[k] <= |s|
    ensures |r| == |ks|
  {
    if ks == [] then [] else [Call(MkdirOp, s[..ks[0]])] + MkdirCalls(s, ks[1..])
  }

  /** The effect of recursive_mkdir on the string `s` from position `i`:
      at each slash the prefix before it is passed to mkdirat; a failure
      other than EEXIST stops the scan, and its position is returned. */
  function MkdirPrefixes(os: Os, at: Handle, s: string, i: nat, mode: nat): (r: (Os, Option<nat>))
    requires i <= |s|
    ensures WellFormed(os.fs) ==> WellFormed(r.0.fs)
    ensures r.0.cwd == os.cwd && r.0.faults == os.faults
    ensures r.1.Some? ==> i <= r.1.value < |s| && s[r.1.value] == '/' && r.0.errno != EEXIST
    decreases |s| - i
  {
    if i == |s| then (os, None)
    else if s[i] != '/' then MkdirPrefixes(os, at, s, i + 1, mode)
    else
      var (os1, res) := Mkdirat(os, at, s[..i], mode);
      if res.Fail? && os1.errno != EEXIST then (os1, Some(i))
      else MkdirPrefixes(os1, at, s, i + 1, mode)
  }

  /** Where the scan of recursive_mkdir ended: after the failing slash, or
      at the end of the string. */
  function ScanEnd(s: string, stop: Option<nat>): nat {
    if stop.Some? then stop.value + 1 else |s|
  }

  /** recursive_mkdir issues mkdirat exactly for the prefixes of the path
      that end before a slash, shortest first, and stops after the first
      call that fails with an errno other than EEXIST. */
  lemma {:induction false} MkdirPrefixesCalls(os: Os, at: Handle, s: string, i: nat, mode: nat)
    requires i <= |s|
    ensures var r := MkdirPrefixes(os, at, s, i, mode);
      r.0.log == os.log + MkdirCalls(s, Slashes(s, i, ScanEnd(s, r.1)))
    decreases |s| - i
  {
    if i < |s| {
      if s[i] != '/' {
        MkdirPrefixesCalls(os, at, s, i + 1, mode);
        SkipStep(os, at, s, i, mode);
      } else {
        var (os1, res) := Mkdirat(os, at, s[..i], mode);
        if !(res.Fail? && os1.errno != EEXIST) {
          MkdirPrefixesCalls(os1, at, s, i + 1, mode);
          var r := MkdirPrefixes(os1, at, s, i + 1, mode);
          assert MkdirPrefixes(os, at, s, i, mode) == r;
          MkdirStep(os.log, os1.log, r.0.log, s, i, r.1);
        } else {
          StopStep(os, at, s, i, mode);
        }
      }
    }
  }

  lemma SkipStep(os: Os, at: Handle, s: string, i: nat, mode: nat)
    requires i < |s| && s[i] != '/'
    requires var r := MkdirPrefixes(os, at, s, i + 1, mode);
      r.0.log == os.log + MkdirCalls(s, Slashes(s, i + 1, ScanEnd(s, r.1)))
    ensures var r := MkdirPrefixes(os, at, s, i, mode);
      r.0.log == os.log + MkdirCalls(s, Slashes(s, i, ScanEnd(s, r.1)))
  {
    var r := MkdirPrefixes(os, at, s, i, mode);
    assert r == MkdirPrefixes(os, at, s, i + 1, mode);
    var end := ScanEnd(s, r.1);
    assert Slashes(s, i, end) == Slashes(s, i + 1, end);
  }

  lemma MkdirStep(log0: seq<Call>, log1: seq<Call>, rlog: seq<Call>, s: string, i: nat, stop: Option<nat>)
    requires i < |s| && s[i] == '/'
    requires stop.Some? ==> i < stop.value < |s|
    requires log1 == log0 + [Call(MkdirOp, s[..i])]
    requires rlog == log1 + MkdirCalls(s, Slashes(s, i + 1, ScanEnd(s, stop)))
    ensures rlog == log0 + MkdirCalls(s, Slashes(s, i, ScanEnd(s, stop)))
  {
    var rest := Slashes(s, i + 1, ScanEnd(s, stop));
    assert Slashes(s, i, ScanEnd(s, stop)) == [i] + rest;
    MkdirCallsCons(s, i, rest);
  }

  lemma StopStep(os: Os, at: Handle, s: string, i: nat, mode: nat)
    requires i < |s| && s[i] == '/'
    requires var (os1, res) := Mkdirat(os, at, s[..i], mode);
      res.Fail? && os1.errno != EEXIST
    ensures var r := MkdirPrefixes(os, at, s, i, mode);
      r.0.log == os.log + MkdirCalls(s, Slashes(s, i, ScanEnd(s, r.1)))
  {
    var (os1, res) := Mkdirat(os, at, s[..i], mode);
    var r := MkdirPrefixes(os, at, s, i, mode);
    assert r == (os1, Some(i));
    assert Slashes(s, i, i + 1) == [i] + Slashes(s, i + 1, i + 1);
  }

  lemma MkdirCallsCons(s: string, k: nat, ks: seq<nat>)
    requires k <= |s| && forall j :: 0 <= j < |ks| ==> ks[j] <= |s|
    ensures MkdirCalls(s, [k] + ks) == [Call(MkdirOp, s[..k])] + MkdirCalls(s, ks)
  {
    assert ([k] + ks)[1..] == ks;
  }

  /** A failure other than EEXIST at the first slash from `i` ends the
      scan there: no later prefix is attempted. */
  lemma {:induction false} MkdirPrefixesStops(os: Os, at: Handle, s: string, i: nat, k: nat, mode: nat)
    requires i <= k < |s| && s[k] == '/'
    requires forall j :: i <= j < k ==> s[j] != '/'
    requires var (os1, res) := Mkdirat(os, at, s[..k], mode);
      res.Fail? && os1.errno != EEXIST
    ensures MkdirPrefixes(os, at, s, i, mode) == (Mkdirat(os, at, s[..k], mode).0, Some(k))
    decreases k - i
  {
    if i < k {
      MkdirPrefixesStops(os, at, s, i + 1, k, mode);
    }
  }

  /** A mkdirat that succeeds, or fails with EEXIST, at the first slash
      from `i` lets the scan go on after that slash from the machine it
      left. */
  lemma {:induction false} MkdirPrefixesContinues(os: Os, at: Handle, s: string, i: nat, k: nat, mode: nat)
    requires i <= k < |s| && s[k] == '/'
    requires forall j :: i <= j < k ==> s[j] != '/'
    requires var (os1, res) := Mkdirat(os, at, s[..k], mode);
      res.Ok? || os1.errno == EEXIST
    ensures MkdirPrefixes(os, at, s, i, mode) == MkdirPrefixes(Mkdirat(os, at, s[..k], mode).0, at, s, k + 1, mode)
    decreases k - i
  {
    if i < k {
      MkdirPrefixesContinues(os, at, s, i + 1, k, mode);
    }
  }

  /** A path without a slash makes recursive_mkdir issue no call. */
  lemma NoSlashNoMkdir(os: Os, at: Handle, s: string, mode: nat)
    requires '/' !in s
    ensures MkdirPrefixes(os, at, s, 0, mode) == (os, None)
  {
    NoSlashFrom(os, at, s, 0, mode);
  }

  lemma {:induction false} NoSlashFrom(os: Os, at: Handle, s: string, i: nat, mode: nat)
    requires '/' !in s && i <= |s|
    ensures MkdirPrefixes(os, at, s, i, mode) == (os, None)
    decreases |s| - i
  {
    if i < |s| {
      NoSlashFrom(os, at, s, i + 1, mode);
    }
  }

  /** A path mkdirat refuses with EEXIST: the empty path (the root), a
      path ending in "..", or any entry of the filesystem, directory or
      not. */
  predicate Occupied(fs: Fs, p: Path) {
    p == [] || p[|p| - 1] == ".." || p in fs
  }

  /** Every prefix of `s` that ends before a slash at or after `i`
      resolves, and to an occupied path. */
  predicate PrefixesPresent(fs: Fs, at: Handle, s: string, i: nat) {
    forall k :: i <= k < |s| && s[k] == '/' ==>
      Resolve(at, s[..k]).Ok? && Occupied(fs, Resolve(at, s[..k]).value)
  }

  /** The oracle injects no mkdirat failure. */
  predicate NoMkdirFaults(os: Os) {
    forall f :: f in os.faults ==> f.op != MkdirOp
  }

  /** Without injected failures, mkdirat fails with EEXIST exactly when
      its path resolves to an occupied path. */
  lemma MkdiratExists(os: Os, at: Handle, s: string, mode: nat)
    requires NoMkdirFaults(os)
    ensures var (os1, res) := Mkdirat(os, at, s, mode);
      (res.Fail? && os1.errno == EEXIST) <==> Resolve(at, s).Ok? && Occupied(os.fs, Resolve(at, s).value)
  {
    if Resolve(at, s).Ok? {
      assert Fault(MkdirOp, Resolve(at, s).value) !in os.faults;
    }
  }

  /** The scan only adds entries. */
  lemma {:induction false} MkdirPrefixesKeepsKeys(os: Os, at: Handle, s: string, i: nat, mode: nat)
    requires i <= |s|
    ensures os.fs.Keys <= MkdirPrefixes(os, at, s, i, mode).0.fs.Keys
    decreases |s| - i
  {
    if i < |s| {
      if s[i] != '/' {
        MkdirPrefixesKeepsKeys(os, at, s, i + 1, mode);
      } else {
        var (os1, res) := Mkdirat(os, at, s[..i], mode);
        if res.Ok? || os1.errno == EEXIST {
          MkdirPrefixesKeepsKeys(os1, at, s, i + 1, mode);
        }
      }
    }
  }

  /** A scan that runs to the end without injected failures leaves every
      prefix before a slash present: made by it, or already there. */
  lemma {:induction false} MkdirPrefixesMaterializes(os: Os, at: Handle, s: string, i: nat, mode: nat)
    requires i <= |s| && NoMkdirFaults(os)
    ensures var r := MkdirPrefixes(os, at, s, i, mode);
      r.1 == None ==> PrefixesPresent(r.0.fs, at, s, i)
    decreases |s| - i
  {
    if i < |s| {
      if s[i] != '/' {
        MkdirPrefixesMaterializes(os, at, s, i + 1, mode);
      } else {
        var (os1, res) := Mkdirat(os, at, s[..i], mode);
        if res.Ok? || os1.errno == EEXIST {
          var r := MkdirPrefixes(os1, at, s, i + 1, mode);
          assert MkdirPrefixes(os, at, s, i, mode) == r;
          MkdirPrefixesMaterializes(os1, at, s, i + 1, mode);
          MkdirPrefixesKeepsKeys(os1, at, s, i + 1, mode);
          MkdiratExists(os, at, s[..i], mode);
          assert Resolve(at, s[..i]).Ok? && Occupied(r.0.fs, Resolve(at, s[..i]).value);
        }
      }
    }
  }

  /** Repeating the scan over prefixes that are all present changes no
      entry and runs to the end (it still issues its mkdirat calls). */
  lemma {:induction false} MkdirPrefixesRepeat(os: Os, at: Handle, s: string, i: nat, mode: nat)
    requires i <= |s| && NoMkdirFaults(os) && PrefixesPresent(os.fs, at, s, i)
    ensures var r := MkdirPrefixes(os, at, s, i, mode);
      r.0.fs == os.fs && r.1 == None
    decreases |s| - i
  {
    if i < |s| {
      if s[i] != '/' {
        MkdirPrefixesRepeat(os, at, s, i + 1, mode);
      } else {
        var (os1, res) := Mkdirat(os, at, s[..i], mode);
        MkdiratExists(os, at, s[..i], mode);
        MkdirPrefixesRepeat(os1, at, s, i + 1, mode);
      }
    }
  }

  // ----------------------------------------------------------------------
  // open, symlink, copy

  /** transact_open: recursive_mkdir (mode 0755) on dirname of the path,
      whose result is ignored, then openat with O_CREAT | O_RDWR | O_TRUNC
      under the scratch descriptor. -1 is BadFd. */
  function OpenEffect(os: Os, fl: FlError, at: Handle, path: string, permissions: nat): (r: (Os, FlError, Handle))
    ensures r.0.cwd == os.cwd && r.0.faults == os.faults
    ensures WellFormed(os.fs) ==> WellFormed(r.0.fs)
    ensures r.1 == fl || r.1 == EMkdir
    ensures fl != EMkdir ==> (r.1 == EMkdir <==> MkdirPrefixes(os, at, Dirname(path), 0, DIR_MODE).1.Some?)
    ensures r.2 != BadFd <==>
      Openat(MkdirPrefixes(os, at, Dirname(path), 0, DIR_MODE).0, at, path, ORdWr(true, true), permissions).1.Ok?
    ensures r.2 != BadFd ==>
      Resolve(at, path).Ok? && r.2 == Open(Resolve(at, path).value) &&
      r.2.path in r.0.fs && r.0.fs[r.2.path].File? && r.0.fs[r.2.path].data == []
  {
    var m := MkdirPrefixes(os, at, Dirname(path), 0, DIR_MODE);
    var (os2, h) := Openat(m.0, at, path, ORdWr(true, true), permissions);
    (os2, if m.1.Some? then EMkdir else fl, if h.Ok? then h.value else BadFd)
  }

  /** The directory that holds the file is never among the ones
      transact_open asks mkdirat for: only the prefixes of dirname(path)
      that end before one of its slashes are, so "a/b/c" creates "a" but
      not "a/b". */
  lemma OpenSkipsParent(os: Os, fl: FlError, at: Handle, path: string, permissions: nat)
    ensures var d := Dirname(path);
      var m := MkdirPrefixes(os, at, d, 0, DIR_MODE);
      OpenEffect(os, fl, at, path, permissions).0.log ==
        os.log + MkdirCalls(d, Slashes(d, 0, ScanEnd(d, m.1))) + [Call(OpenOp, path)] &&
      Call(MkdirOp, d) !in MkdirCalls(d, Slashes(d, 0, ScanEnd(d, m.1)))
  {
    var d := Dirname(path);
    var m := MkdirPrefixes(os, at, d, 0, DIR_MODE);
    MkdirPrefixesCalls(os, at, d, 0, DIR_MODE);
    ProperPrefixCalls(d, Slashes(d, 0, ScanEnd(d, m.1)));
  }

  /** Every call in MkdirCalls names a proper prefix of the string. */
  lemma {:induction false} ProperPrefixCalls(s: string, ks: seq<nat>)
    requires forall k :: 0 <= k < |ks| ==> ks[k] < |s|
    ensures Call(MkdirOp, s) !in MkdirCalls(s, ks)
  {
    if ks != [] {
      assert |s[..ks[0]]| < |s|;
      ProperPrefixCalls(s, ks[1..]);
    }
  }

  /** A path without a slash has "." as its dirname, so only the openat is
      issued. */
  lemma OpenInPlace(os: Os, fl: FlError, at: Handle, path: string, permissions: nat)
    requires '/' !in path && path != ""
    ensures var r := Openat(os, at, path, ORdWr(true, true), permissions);
      OpenEffect(os, fl, at, path, permissions) == (r.0, fl, if r.1.Ok? then r.1.value else BadFd)
  {
    assert Dirname(path) == ".";
    NoSlashNoMkdir(os, at, ".", DIR_MODE);
  }

  /** dirname of a C string is a C string. */
  lemma DirnameNoNul(path: string)
    requires '\0' !in path
    ensures '\0' !in Dirname(path)
  {
    var d := Dirname(path);
    if d != "." && d != "/" {
      forall k | 0 <= k < |d| ensures d[k] != '\0' {
        assert d[k] == path[k];
      }
    }
  }

  /** transact_symlink: the test `< 0 || errno != EEXIST` reports failure
      unless the call succeeded AND errno already held EEXIST from some
      earlier failed call. */
  function SymlinkEffect(os: Os, fl: FlError, at: Handle, fromPath: string, toPath: string): (r: Post)
    ensures r.ret == 0 <==> Symlinkat(os, fromPath, at, toPath).1.Ok? && os.errno == EEXIST
    ensures r.ret != 0 ==> r.ret == -1 && r.fl == ESymlink
    ensures r.ret == 0 ==> r.fl == fl
    ensures r.os.log == os.log + [Call(SymlinkOp, toPath)]
  {
    var (os1, res) := Symlinkat(os, fromPath, at, toPath);
    if res.Fail? || os1.errno != EEXIST then Post(os1, ESymlink, -1) else Post(os1, fl, 0)
  }

  /** With errno not already EEXIST, transact_symlink reports failure even
      when it has created the link. */
  lemma SymlinkReportsCreatedLinkAsFailure(os: Os, fl: FlError, at: Handle, fromPath: string, toPath: string)
    requires os.errno != EEXIST
    requires Symlinkat(os, fromPath, at, toPath).1.Ok?
    ensures var r := SymlinkEffect(os, fl, at, fromPath, toPath);
      r.ret == -1 && r.fl == ESymlink &&
      r.os.fs[Resolve(at, toPath).value] == Link(fromPath)
  {
  }

  /** copy(atfd, file1, file2): opens file1 (O_RDWR) and file2 (O_RDWR |
      O_CREAT, with no mode argument: 0 here), chmods file2 by name (from
      the working directory) to file1's st_mode, then sendfile with file1
      as the OUTPUT and file2 as the input, for file1's size. */
  function CopyEffect(os: Os, fl: FlError, at: Handle, file1: string, file2: string): (r: Post)
    ensures r.ret == 0 || r.ret == -1
    ensures r.ret == 0 ==> r.fl == fl
    ensures r.ret == -1 ==> r.fl == EOpenfile || r.fl == ESendfile
    ensures r.os.cwd == os.cwd && r.os.faults == os.faults
    ensures DirKeys(r.os.fs) == DirKeys(os.fs)
    ensures WellFormed(os.fs) ==> WellFormed(r.os.fs)
  {
    var (os1, h1) := Openat(os, at, file1, ORdWr(false, false), 0);
    var (os2, h2) := Openat(os1, at, file2, ORdWr(true, false), 0);
    if h1.Fail? || h2.Fail? then Post(os2, EOpenfile, -1)
    else
      var (size, mode) := Fstat(os2, h1.value);
      var (os3, c) := Chmod(os2, file2, mode);
      if c.Fail? then Post(os3, EOpenfile, -1)
      else
        var (os4, n) := Sendfile(os3, h1.value, h2.value, size);
        if n.Fail? then Post(os4, ESendfile, -1)
        else Post(Close(Close(os4, h1.value), h2.value), fl, 0)
  }

  /** copy opens both files first: if either open fails the result is
      -1 with FL_EOPENFILE, and only the two opens were issued. */
  lemma CopyOpenFails(os: Os, fl: FlError, at: Handle, file1: string, file2: string)
    requires var (os1, h1) := Openat(os, at, file1, ORdWr(false, false), 0);
      h1.Fail? || Openat(os1, at, file2, ORdWr(true, false), 0).1.Fail?
    ensures var r := CopyEffect(os, fl, at, file1, file2);
      r.ret == -1 && r.fl == EOpenfile && r.os.log == os.log + [Call(OpenOp, file1), Call(OpenOp, file2)]
  {
    var (os1, h1) := Openat(os, at, file1, ORdWr(false, false), 0);
    var (os2, h2) := Openat(os1, at, file2, ORdWr(true, false), 0);
    assert os2.log == os.log + [Call(OpenOp, file1)] + [Call(OpenOp, file2)];
  }

  /** With both files open, a failed chmod is -1 with FL_EOPENFILE, and
      no sendfile is issued. */
  lemma CopyChmodFails(os: Os, fl: FlError, at: Handle, file1: string, file2: string)
    requires var (os1, h1) := Openat(os, at, file1, ORdWr(false, false), 0);
      var (os2, h2) := Openat(os1, at, file2, ORdWr(true, false), 0);
      h1.Ok? && h2.Ok? && Chmod(os2, file2, Fstat(os2, h1.value).1).1.Fail?
    ensures var r := CopyEffect(os, fl, at, file1, file2);
      r.ret == -1 && r.fl == EOpenfile &&
      r.os.log == os.log + [Call(OpenOp, file1), Call(OpenOp, file2), Call(ChmodOp, file2)]
  {
    var (os1, h1) := Openat(os, at, file1, ORdWr(false, false), 0);
    var (os2, h2) := Openat(os1, at, file2, ORdWr(true, false), 0);
    var (os3, c) := Chmod(os2, file2, Fstat(os2, h1.value).1);
    assert CopyEffect(os, fl, at, file1, file2) == Post(os3, EOpenfile, -1);
    assert os3.log == os.log + [Call(OpenOp, file1)] + [Call(OpenOp, file2)] + [Call(ChmodOp, file2)];
  }

  /** After both opens and the chmod have succeeded, copy gives 0
      exactly when sendfile succeeds, and -1 with FL_ESENDFILE otherwise. */
  lemma CopySendfileStep(os: Os, fl: FlError, at: Handle, file1: string, file2: string)
    requires var (os1, h1) := Openat(os, at, file1, ORdWr(false, false), 0);
      var (os2, h2) := Openat(os1, at, file2, ORdWr(true, false), 0);
      h1.Ok? && h2.Ok? && Chmod(os2, file2, Fstat(os2, h1.value).1).1.Ok?
    ensures var r := CopyEffect(os, fl, at, file1, file2);
      var (os1, h1) := Openat(os, at, file1, ORdWr(false, false), 0);
      var (os2, h2) := Openat(os1, at, file2, ORdWr(true, false), 0);
      var (size, mode) := Fstat(os2, h1.value);
      var n := Sendfile(Chmod(os2, file2, mode).0, h1.value, h2.value, size).1;
      (r.ret == 0 <==> n.Ok?) && (r.ret == 0 ==> r.fl == fl) && (n.Fail? ==> r.fl == ESendfile)
  {
    var (os1, h1) := Openat(os, at, file1, ORdWr(false, false), 0);
    var (os2, h2) := Openat(os1, at, file2, ORdWr(true, false), 0);
    var (size, mode) := Fstat(os2, h1.value);
    var (os3, c) := Chmod(os2, file2, mode);
    var (os4, n) := Sendfile(os3, h1.value, h2.value, size);
    if n.Ok? {
      assert CopyEffect(os, fl, at, file1, file2) == Post(Close(Close(os4, h1.value), h2.value), fl, 0);
    } else {
      assert CopyEffect(os, fl, at, file1, file2) == Post(os4, ESendfile, -1);
    }
  }

  /** Once the chmod has succeeded, copy has issued all four calls. */
  lemma CopyIssuesAll(os: Os, fl: FlError, at: Handle, file1: string, file2: string)
    requires var (os1, h1) := Openat(os, at, file1, ORdWr(false, false), 0);
      var (os2, h2) := Openat(os1, at, file2, ORdWr(true, false), 0);
      h1.Ok? && h2.Ok? && Chmod(os2, file2, Fstat(os2, h1.value).1).1.Ok?
    ensures CopyEffect(os, fl, at, file1, file2).os.log ==
      os.log + [Call(OpenOp, file1), Call(OpenOp, file2), Call(ChmodOp, file2), Call(SendfileOp, "")]
  {
    var (os1, h1) := Openat(os, at, file1, ORdWr(false, false), 0);
    var (os2, h2) := Openat(os1, at, file2, ORdWr(true, false), 0);
    var (size, mode) := Fstat(os2, h1.value);
    var os4 := Sendfile(Chmod(os2, file2, mode).0, h1.value, h2.value, size).0;
    FourCalls(os.log, os1.log, os2.log, Chmod(os2, file2, mode).0.log, os4.log,
      Call(OpenOp, file1), Call(OpenOp, file2), Call(ChmodOp, file2), Call(SendfileOp, ""));
    assert CopyEffect(os, fl, at, file1, file2).os.log == os4.log;
  }

  /** Four calls logged one after the other. */
  lemma FourCalls(l0: seq<Call>, l1: seq<Call>, l2: seq<Call>, l3: seq<Call>, l4: seq<Call>, c1: Call, c2: Call, c3: Call, c4: Call)
    requires l1 == l0 + [c1] && l2 == l1 + [c2] && l3 == l2 + [c3] && l4 == l3 + [c4]
    ensures l4 == l0 + [c1, c2, c3, c4]
  {
  }

  /** The data moves from file2 into file1: after a successful copy file1
      starts with file2's first bytes (as many as file1 had), file2 keeps
      its bytes and takes file1's permission bits. */
  lemma CopyDirection(os: Os, fl: FlError, at: Handle, file1: string, file2: string)
    requires WellFormed(os.fs)
    requires CopyEffect(os, fl, at, file1, file2).ret == 0
    requires Resolve(at, file2) == Resolve(Cwd(os), file2)
    requires Resolve(at, file1).Ok? && Resolve(at, file2).Ok? && Resolve(at, file1) != Resolve(at, file2)
    ensures var p1, p2 := Resolve(at, file1).value, Resolve(at, file2).value;
      var fs := CopyEffect(os, fl, at, file1, file2).os.fs;
      var src := if p2 in os.fs then os.fs[p2].data else [];
      var n := if |os.fs[p1].data| <= |src| then |os.fs[p1].data| else |src|;
      p1 in os.fs && os.fs[p1].File? && p1 in fs && p2 in fs &&
      fs[p1] == File(Overwrite(os.fs[p1].data, src[..n]), os.fs[p1].mode) &&
      fs[p2] == File(src, os.fs[p1].mode % PERM_MODULUS)
  {
    var p1, p2 := Resolve(at, file1).value, Resolve(at, file2).value;
    var (os1, h1) := Openat(os, at, file1, ORdWr(false, false), 0);
    var (os2, h2) := Openat(os1, at, file2, ORdWr(true, false), 0);
    assert h1.Ok? && h2.Ok?;
    assert os1.fs == os.fs;
    assert p1 in os.fs && os.fs[p1].File?;
    var src := if p2 in os.fs then os.fs[p2].data else [];
    if p2 in os.fs {
      assert os2.fs == os.fs;
    } else {
      assert os2.fs[p2] == File([], 0) && os2.fs[p1] == os.fs[p1];
    }
    assert os2.fs[p2] == File(src, os2.fs[p2].mode);
    var (size, mode) := Fstat(os2, h1.value);
    assert size == |os.fs[p1].data| && mode == S_IFREG + os.fs[p1].mode;
    var (os3, c) := Chmod(os2, file2, mode);
    assert os3.fs[p2] == File(src, mode % PERM_MODULUS) && os3.fs[p1] == os.fs[p1];
    assert mode % PERM_MODULUS == os.fs[p1].mode % PERM_MODULUS;
  }

  /** copy into a destination that does not exist yet leaves the source as
      it was and the new destination empty. */
  lemma CopyToNewFileCopiesNothing(os: Os, fl: FlError, at: Handle, file1: string, file2: string)
    requires WellFormed(os.fs)
    requires CopyEffect(os, fl, at, file1, file2).ret == 0
    requires Resolve(at, file2) == Resolve(Cwd(os), file2)
    requires Resolve(at, file1).Ok? && Resolve(at, file2).Ok? && Resolve(at, file1) != Resolve(at, file2)
    requires Resolve(at, file2).value !in os.fs
    ensures var fs := CopyEffect(os, fl, at, file1, file2).os.fs;
      fs[Resolve(at, file1).value] == os.fs[Resolve(at, file1).value] &&
      fs[Resolve(at, file2).value].data == []
  {
    CopyDirection(os, fl, at, file1, file2);
    var d := os.fs[Resolve(at, file1).value].data;
    assert Overwrite(d, []) == d;
  }

  /** chmod names file2 relative to the working directory, not to the
      descriptor the opens used: with a relative file2 under a scratch
      directory other than the working directory, and no such file in the
      working directory, copy fails with FL_EOPENFILE once both opens
      have succeeded. */
  lemma CopyRelativeChmodFails(os: Os, fl: FlError, scratch: Path, file1: string, file2: string)
    requires file2 != "" && file2[0] != '/' && scratch != os.cwd
    requires os.cwd + Components(file2) !in os.fs
    requires var (os1, h1) := Openat(os, Open(scratch), file1, ORdWr(false, false), 0);
      h1.Ok? && Openat(os1, Open(scratch), file2, ORdWr(true, false), 0).1.Ok?
    ensures var r := CopyEffect(os, fl, Open(scratch), file1, file2);
      r.ret == -1 && r.fl == EOpenfile
  {
    var c := Components(file2);
    var here := os.cwd + c;
    var there := scratch + c;
    assert here != there by {
      if |os.cwd| == |scratch| {
        assert here[..|os.cwd|] == os.cwd && there[..|scratch|] == scratch;
      } else {
        assert |here| != |there|;
      }
    }
    var (os1, h1) := Openat(os, Open(scratch), file1, ORdWr(false, false), 0);
    var (os2, h2) := Openat(os1, Open(scratch), file2, ORdWr(true, false), 0);
    assert os1.fs == os.fs;
    assert os2.fs.Keys <= os1.fs.Keys + {there};
    assert Resolve(Cwd(os2), file2) == Ok(here);
    CopyChmodFails(os, fl, Open(scratch), file1, file2);
  }

  /** copy_link reads the target into an uninitialised PATH_MAX buffer
      that readlinkat does not terminate: what symlinkat then receives is
      the C string in that buffer, whose tail is the earlier `stale`
      contents. */
  function LinkBuffer(target: string, stale: seq<char>): string
    requires |stale| == PATH_MAX
  {
    var n := if |target| < PATH_MAX - 1 then |target| else PATH_MAX - 1;
    CString(target[..n] + stale[n..])
  }

  /** The link is copied faithfully exactly when the byte after the target
      in the stale buffer happens to be NUL. */
  lemma LinkBufferFaithful(target: string, stale: seq<char>)
    requires |stale| == PATH_MAX && |target| < PATH_MAX - 1 && '\0' !in target
    ensures LinkBuffer(target, stale) == target <==> stale[|target|] == '\0'
  {
    var buf := target[..|target|] + stale[|target|..];
    assert buf[..|target|] == target;
    if stale[|target|] == '\0' {
      assert buf[|target|] == '\0';
      CStringUpTo(buf, |target|);
    }
  }

  /** copy_link: readlinkat from one directory, symlinkat into the other;
      either failure sets FL_ESYMLINK. */
  function CopyLinkEffect(os: Os, fl: FlError, fromAt: Handle, from: string, destAt: Handle, dest: string, stale: seq<char>): (r: Post)
    requires |stale| == PATH_MAX
    ensures r.ret == 0 || (r.ret == -1 && r.fl == ESymlink)
    ensures var (os1, t) := Readlinkat(os, fromAt, from);
      r.ret == 0 <==> t.Ok? && Symlinkat(os1, LinkBuffer(t.value, stale), destAt, dest).1.Ok?
    ensures r.ret == 0 ==>
      r.fl == fl &&
      Resolve(fromAt, from).Ok? && Resolve(fromAt, from).value in os.fs && os.fs[Resolve(fromAt, from).value].Link? &&
      Resolve(destAt, dest).Ok? && Resolve(destAt, dest).value !in os.fs && Resolve(destAt, dest).value in r.os.fs &&
      r.os.fs[Resolve(destAt, dest).value] == Link(LinkBuffer(os.fs[Resolve(fromAt, from).value].target, stale))
    ensures r.os.cwd == os.cwd && r.os.faults == os.faults
    ensures DirKeys(r.os.fs) == DirKeys(os.fs)
    ensures WellFormed(os.fs) ==> WellFormed(r.os.fs)
  {
    var (os1, t) := Readlinkat(os, fromAt, from);
    if t.Fail? then Post(os1, ESymlink, -1)
    else
      var (os2, res) := Symlinkat(os1, LinkBuffer(t.value, stale), destAt, dest);
      if res.Fail? then Post(os2, ESymlink, -1) else Post(os2, fl, 0)
  }

  // ----------------------------------------------------------------------
  // commit

  /** What the commit walk reads from the transaction: the scratch path
      and descriptor, the root path and descriptor, and the earlier
      contents of copy_link's buffer. */
  datatype Stage = Stage(tmpPath: string, tmpFd: Handle, rootPath: string, rootFd: Handle, stale: seq<char>)

  ghost predicate StageOk(g: Stage) {
    |g.stale| == PATH_MAX
  }

  /** commit_directory_iterator on `cur` (relative to the scratch
      directory): opendir failure sets FL_EOPENDIR; entries are handled
      in readdir order, and a subdirectory or link failure ends the walk
      with -1. */
  function CommitDir(os: Os, fl: FlError, g: Stage, cur: string): (r: Post)
    requires WellFormed(os.fs) && StageOk(g)
    ensures WellFormed(r.os.fs) && DirKeys(r.os.fs) == DirKeys(os.fs)
    ensures r.os.cwd == os.cwd && r.os.faults == os.faults
    ensures r.ret == 0 || r.ret == -1
    ensures var (os1, d) := Opendir(os, g.tmpPath + "/" + cur);
      d.Fail? ==> r == Post(os1, EOpendir, -1)
    decreases BelowCount(os, g.tmpPath + "/" + cur), 1, 0
  {
    var (os1, d) := Opendir(os, g.tmpPath + "/" + cur);
    match d
    case Fail(_) => Post(os1, EOpendir, -1)
    case Ok(v) => CommitEntries(os1, fl, g, cur, v.0, v.1, 0)
  }

  function CommitEntries(os: Os, fl: FlError, g: Stage, cur: string, dp: Path, names: seq<string>, i: nat): (r: Post)
    requires WellFormed(os.fs) && StageOk(g)
    requires Resolve(Cwd(os), g.tmpPath + "/" + cur) == Ok(dp)
    requires NamesValid(names) && i <= |names|
    ensures WellFormed(r.os.fs) && DirKeys(r.os.fs) == DirKeys(os.fs)
    ensures r.os.cwd == os.cwd && r.os.faults == os.faults
    ensures r.ret == 0 || r.ret == -1
    decreases |DirsBelow(os.fs, dp)|, 0, |names| - i
  {
    if i == |names| then Post(os, fl, 0)
    else if names[i] == "." || names[i] == ".." then CommitEntries(os, fl, g, cur, dp, names, i + 1)
    else
      var first := CommitEntry(os, fl, g, cur, dp, names[i]);
      if first.ret < 0 then first
      else
        DirsBelowSame(os.fs, first.os.fs, dp);
        CommitEntries(first.os, first.fl, g, cur, dp, names, i + 1)
  }

  /** One entry, by its d_type: a directory is walked, a regular file is
      copied to the same place under the root (the result is ignored), a
      link is recreated under the root (a failure sets FL_ESENDFILE and
      ends the walk), anything else is only logged. */
  function CommitEntry(os: Os, fl: FlError, g: Stage, cur: string, dp: Path, n: string): (r: Post)
    requires WellFormed(os.fs) && StageOk(g)
    requires Resolve(Cwd(os), g.tmpPath + "/" + cur) == Ok(dp)
    requires ValidName(n) && n != "." && n != ".."
    ensures WellFormed(r.os.fs) && DirKeys(r.os.fs) == DirKeys(os.fs)
    ensures r.os.cwd == os.cwd && r.os.faults == os.faults
    ensures r.ret == 0 || r.ret == -1
    decreases |DirsBelow(os.fs, dp)|, 0, 0
  {
    var sub := cur + "/" + n;
    match DType(os.fs, dp + [n])
    case DtDir =>
      ResolveChild(Cwd(os), g.tmpPath + "/" + cur, n);
      assert g.tmpPath + "/" + sub == g.tmpPath + "/" + cur + "/" + n;
      DirsBelowShrink(os.fs, dp, n);
      CommitDir(os, fl, g, sub)
    case DtReg =>
      var c := CopyEffect(os, fl, g.tmpFd, g.tmpPath + "/" + cur + "/" + n, g.rootPath + "/" + cur + "/" + n);
      Post(c.os, c.fl, 0)
    case DtLnk =>
      var c := CopyLinkEffect(os, fl, g.tmpFd, sub, g.rootFd, sub, g.stale);
      if c.ret < 0 then Post(c.os, ESendfile, -1) else c
    case DtOther => Post(os, fl, 0)
  }

  /** The entry loop: "." and ".." are skipped, the first entry that
      fails ends the walk with its result and no later sibling is
      visited, an entry that succeeds hands its machine and
      g_libfl_errno on, and the end of the listing gives 0. */
  lemma CommitEntriesSteps(os: Os, fl: FlError, g: Stage, cur: string, dp: Path, names: seq<string>, i: nat)
    requires WellFormed(os.fs) && StageOk(g)
    requires Resolve(Cwd(os), g.tmpPath + "/" + cur) == Ok(dp)
    requires NamesValid(names) && i <= |names|
    ensures i == |names| ==> CommitEntries(os, fl, g, cur, dp, names, i) == Post(os, fl, 0)
    ensures i < |names| && (names[i] == "." || names[i] == "..") ==>
      CommitEntries(os, fl, g, cur, dp, names, i) == CommitEntries(os, fl, g, cur, dp, names, i + 1)
    ensures i < |names| && names[i] != "." && names[i] != ".." ==>
      var first := CommitEntry(os, fl, g, cur, dp, names[i]);
      (first.ret < 0 ==> CommitEntries(os, fl, g, cur, dp, names, i) == first) &&
      (first.ret >= 0 ==> CommitEntries(os, fl, g, cur, dp, names, i) ==
                          CommitEntries(first.os, first.fl, g, cur, dp, names, i + 1))
  {
  }

  /** One entry by its d_type: a directory is committed recursively; a
      regular file is copied and the walk goes on with 0 whatever the
      copy gave; a link is recreated, and its failure is -1 with
      FL_ESENDFILE; anything else changes nothing. */
  lemma CommitEntryCases(os: Os, fl: FlError, g: Stage, cur: string, dp: Path, n: string)
    requires WellFormed(os.fs) && StageOk(g)
    requires Resolve(Cwd(os), g.tmpPath + "/" + cur) == Ok(dp)
    requires ValidName(n) && n != "." && n != ".."
    ensures DType(os.fs, dp + [n]) == DtDir ==>
      CommitEntry(os, fl, g, cur, dp, n) == CommitDir(os, fl, g, cur + "/" + n)
    ensures DType(os.fs, dp + [n]) == DtReg ==>
      var r := CommitEntry(os, fl, g, cur, dp, n);
      var c := CopyEffect(os, fl, g.tmpFd, g.tmpPath + "/" + cur + "/" + n, g.rootPath + "/" + cur + "/" + n);
      r.ret == 0 && r.os == c.os && r.fl == c.fl
    ensures DType(os.fs, dp + [n]) == DtLnk ==>
      var r := CommitEntry(os, fl, g, cur, dp, n);
      var c := CopyLinkEffect(os, fl, g.tmpFd, cur + "/" + n, g.rootFd, cur + "/" + n, g.stale);
      r.os == c.os && (r.ret == 0 <==> c.ret == 0) && (r.ret == 0 ==> r.fl == fl) && (r.ret != 0 ==> r.fl == ESendfile)
    ensures DType(os.fs, dp + [n]) == DtOther ==> CommitEntry(os, fl, g, cur, dp, n) == Post(os, fl, 0)
  {
  }

  /** copy_link is handed the same path for the link to read and the link
      to create, and that path is absolute (commit starts from "" and
      prefixes each name with "/"), so both descriptors are ignored: if
      readlinkat finds a link there, symlinkat meets that very link.
      Every staged link therefore ends the commit with -1 and
      FL_ESENDFILE. */
  lemma LinkCommitAlwaysFails(os: Os, fl: FlError, g: Stage, cur: string, dp: Path, n: string)
    requires WellFormed(os.fs) && StageOk(g)
    requires Resolve(Cwd(os), g.tmpPath + "/" + cur) == Ok(dp)
    requires ValidName(n) && n != "." && n != ".."
    requires cur == "" || cur[0] == '/'
    requires DType(os.fs, dp + [n]) == DtLnk
    ensures var r := CommitEntry(os, fl, g, cur, dp, n);
      r.ret == -1 && r.fl == ESendfile
  {
    var sub := cur + "/" + n;
    assert sub[0] == '/';
    CommitEntryCases(os, fl, g, cur, dp, n);
    var (os1, t) := Readlinkat(os, g.tmpFd, sub);
    if t.Ok? {
      assert Resolve(g.rootFd, sub) == Resolve(g.tmpFd, sub);
      assert Resolve(g.rootFd, sub).value in os1.fs;
      assert Symlinkat(os1, LinkBuffer(t.value, g.stale), g.rootFd, sub).1.Fail?;
    }
  }

  /** A step that keeps the set of directories keeps the count below `d`. */
  lemma DirsBelowSame(fs: Fs, fs': Fs, d: Path)
    requires DirKeys(fs') == DirKeys(fs)
    ensures DirsBelow(fs', d) == DirsBelow(fs, d)
  {
  }

  /** A failed commit reports FL_EOPENDIR or FL_ESENDFILE: file copy
      failures never end the walk, and a link failure's FL_ESYMLINK is
      overwritten. */
  lemma {:induction false} CommitDirFailure(os: Os, fl: FlError, g: Stage, cur: string)
    requires WellFormed(os.fs) && StageOk(g)
    ensures var r := CommitDir(os, fl, g, cur);
      r.ret == -1 ==> r.fl == EOpendir || r.fl == ESendfile
    decreases BelowCount(os, g.tmpPath + "/" + cur), 1, 0
  {
    var (os1, d) := Opendir(os, g.tmpPath + "/" + cur);
    if d.Ok? {
      CommitEntriesFailure(os1, fl, g, cur, d.value.0, d.value.1, 0);
    }
  }

  lemma {:induction false} CommitEntriesFailure(os: Os, fl: FlError, g: Stage, cur: string, dp: Path, names: seq<string>, i: nat)
    requires WellFormed(os.fs) && StageOk(g)
    requires Resolve(Cwd(os), g.tmpPath + "/" + cur) == Ok(dp)
    requires NamesValid(names) && i <= |names|
    ensures var r := CommitEntries(os, fl, g, cur, dp, names, i);
      r.ret == -1 ==> r.fl == EOpendir || r.fl == ESendfile
    decreases |DirsBelow(os.fs, dp)|, 0, |names| - i
  {
    if i < |names| {
      if names[i] == "." || names[i] == ".." {
        CommitEntriesFailure(os, fl, g, cur, dp, names, i + 1);
      } else {
        var first := CommitEntry(os, fl, g, cur, dp, names[i]);
        CommitEntryFailure(os, fl, g, cur, dp, names[i]);
        if first.ret >= 0 {
          DirsBelowSame(os.fs, first.os.fs, dp);
          CommitEntriesFailure(first.os, first.fl, g, cur, dp, names, i + 1);
        }
      }
    }
  }

  lemma {:induction false} CommitEntryFailure(os: Os, fl: FlError, g: Stage, cur: string, dp: Path, n: string)
    requires WellFormed(os.fs) && StageOk(g)
    requires Resolve(Cwd(os), g.tmpPath + "/" + cur) == Ok(dp)
    requires ValidName(n) && n != "." && n != ".."
    ensures var r := CommitEntry(os, fl, g, cur, dp, n);
      r.ret == -1 ==> r.fl == EOpendir || r.fl == ESendfile
    decreases |DirsBelow(os.fs, dp)|, 0, 0
  {
    if DType(os.fs, dp + [n]) == DtDir {
      ResolveChild(Cwd(os), g.tmpPath + "/" + cur, n);
      assert g.tmpPath + "/" + (cur + "/" + n) == g.tmpPath + "/" + cur + "/" + n;
      DirsBelowShrink(os.fs, dp, n);
      CommitDirFailure(os, fl, g, cur + "/" + n);
    }
  }

  /** A scratch directory holding nothing but "." and ".." commits with
      0 and leaves the filesystem and g_libfl_errno as they were. */
  lemma CommitEmpty(os: Os, fl: FlError, g: Stage, cur: string)
    requires WellFormed(os.fs) && StageOk(g)
    requires var d := Opendir(os, g.tmpPath + "/" + cur).1;
      d.Ok? && forall k :: 0 <= k < |d.value.1| ==> d.value.1[k] == "." || d.value.1[k] == ".."
    ensures var r := CommitDir(os, fl, g, cur);
      r.ret == 0 && r.fl == fl && r.os.fs == os.fs
  {
    var (os1, d) := Opendir(os, g.tmpPath + "/" + cur);
    SkipDots(os1, fl, g, cur, d.value.0, d.value.1, 0);
  }

  lemma {:induction false} SkipDots(os: Os, fl: FlError, g: Stage, cur: string, dp: Path, names: seq<string>, i: nat)
    requires WellFormed(os.fs) && StageOk(g)
    requires Resolve(Cwd(os), g.tmpPath + "/" + cur) == Ok(dp)
    requires NamesValid(names) && i <= |names|
    requires forall k :: i <= k < |names| ==> names[k] == "." || names[k] == ".."
    ensures CommitEntries(os, fl, g, cur, dp, names, i) == Post(os, fl, 0)
    decreases |names| - i
  {
    if i < |names| {
      SkipDots(os, fl, g, cur, dp, names, i + 1);
    }
  }

  // ----------------------------------------------------------------------
  // The implementations

  /** copy, one system call after the other. */
  method Copy(p: Process, at: Handle, file1: string, file2: string) returns (ret: int)
    requires p.Valid()
    modifies p
    ensures p.Valid()
    ensures Post(p.os, p.flErrno, ret) == CopyEffect(old(p.os), old(p.flErrno), at, file1, file2)
  {
    var o1 := Openat(p.os, at, file1, ORdWr(false, false), 0);
    p.os := o1.0;
    var o2 := Openat(p.os, at, file2, ORdWr(true, false), 0);
    p.os := o2.0;
    if o1.1.Fail? || o2.1.Fail? {
      p.flErrno := EOpenfile;
      return -1;
    }
    var fd1, fd2 := o1.1.value, o2.1.value;
    var st := Fstat(p.os, fd1);
    var c := Chmod(p.os, file2, st.1);
    p.os := c.0;
    if c.1.Fail? {
      p.flErrno := EOpenfile;
      return -1;
    }
    var sf := Sendfile(p.os, fd1, fd2, st.0);
    p.os := sf.0;
    if sf.1.Fail? {
      p.flErrno := ESendfile;
      return -1;
    }
    p.os := Close(p.os, fd1);
    p.os := Close(p.os, fd2);
    return 0;
  }

  /** copy_link: readlinkat writes the target's bytes (at most PATH_MAX - 1)
      over the start of a buffer that holds `stale`, and adds no NUL. */
  method CopyLink(p: Process, fromAt: Handle, from: string, destAt: Handle, dest: string, stale: seq<char>)
    returns (ret: int)
    requires p.Valid() && |stale| == PATH_MAX
    modifies p
    ensures p.Valid()
    ensures Post(p.os, p.flErrno, ret) == CopyLinkEffect(old(p.os), old(p.flErrno), fromAt, from, destAt, dest, stale)
  {
    var buf := new char[PATH_MAX](i requires 0 <= i < PATH_MAX => stale[i]);
    var rl := Readlinkat(p.os, fromAt, from);
    p.os := rl.0;
    if rl.1.Fail? {
      p.flErrno := ESymlink;
      return -1;
    }
    var t := rl.1.value;
    var n := if |t| < PATH_MAX - 1 then |t| else PATH_MAX - 1;
    forall i | 0 <= i < n {
      buf[i] := t[i];
    }
    assert buf[..] == t[..n] + stale[n..];
    var sl := Symlinkat(p.os, CString(buf[..]), destAt, dest);
    p.os := sl.0;
    if sl.1.Fail? {
      p.flErrno := ESymlink;
      return -1;
    }
    return 0;
  }

  class Transact {
    var rootPath: string
    var rootFd: Handle
    const tmp: Tmp

    /** The zeroed structure that transact_init fills. */
    constructor ()
      ensures fresh(tmp) && rootPath == "" && rootFd == BadFd
    {
      rootPath := "";
      rootFd := BadFd;
      tmp := new Tmp();
    }

    /** What commit reads from the transaction. */
    function StageOf(stale: seq<char>): Stage
      reads this, tmp
    {
      Stage(tmp.dirPath, tmp.dirFd, rootPath, rootFd, stale)
    }

    /** libfl_transact_init: `allocOk` is malloc's answer and `rand` the
        draws for the scratch name. The root (g_libfl_effective_root) is
        opened with O_DIRECTORY; if that fails the transaction is destroyed
        and FL_EOPENDIR reported. */
    static method Init(p: Process, allocOk: bool, rand: seq<nat>) returns (t: Transact?)
      requires p.Valid() && |rand| >= FILL_LEN
      modifies p
      ensures p.Valid()
      ensures !allocOk ==> t == null && p.os == old(p.os) && p.flErrno == EAlloc
      ensures allocOk ==>
        var (os1, fd) := TmpInitEffect(old(p.os), TmpName(rand));
        var (os2, rfd) := Openat(os1, Cwd(os1), p.effectiveRoot, ODirectory, 0);
        (rfd.Ok? ==>
          t != null && fresh(t) && fresh(t.tmp) && p.os == os2 && p.flErrno == old(p.flErrno) &&
          t.rootPath == p.effectiveRoot && t.rootFd == rfd.value &&
          t.tmp.dirPath == TmpName(rand) && t.tmp.dirFd == fd) &&
        (rfd.Fail? ==>
          t == null && p.flErrno == EOpendir &&
          p.os == Close(Nftw(Close(os2, fd), old(p.flErrno), TmpName(rand)).os, BadFd))
    {
      if !allocOk {
        p.flErrno := EAlloc;
        return null;
      }
      var tr := new Transact();
      tr.tmp.Init(p, rand);
      tr.rootPath := p.effectiveRoot;
      var o := Openat(p.os, Cwd(p.os), tr.rootPath, ODirectory, 0);
      p.os := o.0;
      tr.rootFd := if o.1.Ok? then o.1.value else BadFd;
      if o.1.Fail? {
        tr.Destroy(p);
        p.flErrno := EOpendir;
        return null;
      }
      return tr;
    }

    /** libfl_transact_destroy: cleans the scratch area up, then closes the
        root descriptor (the memory it frees is not modelled). */
    method Destroy(p: Process)
      requires p.Valid()
      modifies this, tmp, p
      ensures p.Valid() && tmp.dirPath == old(tmp.dirPath)
      ensures tmp.dirFd == Closing(old(tmp.dirFd)) && rootFd == Closing(old(rootFd))
      ensures var w := Nftw(Close(old(p.os), old(tmp.dirFd)), old(p.flErrno), old(tmp.dirPath));
        p.os == Close(w.os, old(rootFd)) && p.flErrno == w.fl
    {
      tmp.Cleanup(p);
      p.os := Close(p.os, rootFd);
      rootFd := Closing(rootFd);
    }

    /** libfl_transact_recursive_mkdir: the path buffer is cut at each
        slash in turn; on success it is as it was, on failure the NUL is
        left at the failing slash. */
    method RecursiveMkdir(p: Process, path: array<char>, permissions: nat) returns (ret: int)
      requires p.Valid() && '\0' in path[..]
      modifies p, path
      ensures p.Valid()
      ensures var r := MkdirPrefixes(old(p.os), tmp.dirFd, CString(old(path[..])), 0, permissions);
        p.os == r.0 &&
        (r.1.None? ==> ret == 0 && p.flErrno == old(p.flErrno) && path[..] == old(path[..])) &&
        (r.1.Some? ==> ret == -1 && p.flErrno == EMkdir && path[..] == old(path[..])[r.1.value := '\0'])
    {
      ghost var s := CString(path[..]);
      ghost var buf := path[..];
      var w := 0;
      while path[w] != '\0'
        invariant w <= |s| < path.Length
        invariant path[..] == buf
        invariant p.Valid() && p.flErrno == old(p.flErrno)
        invariant MkdirPrefixes(p.os, tmp.dirFd, s, w, permissions) == MkdirPrefixes(old(p.os), tmp.dirFd, s, 0, permissions)
        decreases |s| - w
      {
        if path[w] == '/' {
          path[w] := '\0';
          assert path[..w] == s[..w];
          CStringUpTo(path[..], w);
          var m := Mkdirat(p.os, tmp.dirFd, CString(path[..]), permissions);
          p.os := m.0;
          if m.1.Fail? && p.os.errno != EEXIST {
            p.flErrno := EMkdir;
            return -1;
          }
          path[w] := '/';
          assert path[..] == buf;
        }
        w := w + 1;
      }
      return 0;
    }

    /** libfl_transact_open */
    method Open(p: Process, path: string, permissions: nat) returns (fd: Handle)
      requires p.Valid() && '\0' !in path
      modifies p
      ensures p.Valid()
      ensures (p.os, p.flErrno, fd) == OpenEffect(old(p.os), old(p.flErrno), tmp.dirFd, path, permissions)
    {
      var dir := Dirname(path) + ['\0'];
      var dirpath := new char[|dir|](i requires 0 <= i < |dir| => dir[i]);
      assert dirpath[..] == dir;
      DirnameNoNul(path);
      CStringUpTo(dir, |dir| - 1);
      assert dir[..|dir| - 1] == Dirname(path);
      var _ := RecursiveMkdir(p, dirpath, DIR_MODE);
      var o := Openat(p.os, tmp.dirFd, path, ORdWr(true, true), permissions);
      p.os := o.0;
      fd := if o.1.Ok? then o.1.value else BadFd;
    }

    /** libfl_transact_symlink */
    method Symlink(p: Process, fromPath: string, toPath: string) returns (ret: int)
      requires p.Valid()
      modifies p
      ensures p.Valid()
      ensures Post(p.os, p.flErrno, ret) == SymlinkEffect(old(p.os), old(p.flErrno), tmp.dirFd, fromPath, toPath)
    {
      var sl := Symlinkat(p.os, fromPath, tmp.dirFd, toPath);
      p.os := sl.0;
      if sl.1.Fail? || p.os.errno != EEXIST {
        p.flErrno := ESymlink;
        return -1;
      }
      return 0;
    }

    /** libfl_transact_copy: copy relative to the scratch descriptor. */
    method CopyFile(p: Process, fileFrom: string, fileTo: string) returns (ret: int)
      requires p.Valid()
      modifies p
      ensures p.Valid()
      ensures Post(p.os, p.flErrno, ret) == CopyEffect(old(p.os), old(p.flErrno), tmp.dirFd, fileFrom, fileTo)
    {
      ret := Copy(p, tmp.dirFd, fileFrom, fileTo);
    }

    /** commit_directory_iterator, with its readdir loop. */
    method CommitDirectory(p: Process, cur: string, stale: seq<char>) returns (ret: int)
      requires p.Valid() && |stale| == PATH_MAX
      modifies p
      ensures p.Valid()
      ensures Post(p.os, p.flErrno, ret) == CommitDir(old(p.os), old(p.flErrno), StageOf(stale), cur)
      decreases BelowCount(p.os, tmp.dirPath + "/" + cur), 1
    {
      ghost var g := StageOf(stale);
      var od := Opendir(p.os, tmp.dirPath + "/" + cur);
      p.os := od.0;
      if od.1.Fail? {
        p.flErrno := EOpendir;
        return -1;
      }
      var dp, names := od.1.value.0, od.1.value.1;
      ghost var os0, fl0 := p.os, p.flErrno;
      var i := 0;
      while i < |names|
        invariant i <= |names| && NamesValid(names)
        invariant p.Valid() && DirKeys(p.os.fs) == DirKeys(os0.fs) && p.os.cwd == os0.cwd
        invariant CommitEntries(p.os, p.flErrno, g, cur, dp, names, i) == CommitEntries(os0, fl0, g, cur, dp, names, 0)
      {
        var n := names[i];
        if n != "." && n != ".." {
          DirsBelowSame(os0.fs, p.os.fs, dp);
          var r := CommitEntryStep(p, cur, dp, n, stale);
          if r < 0 {
            return -1;
          }
        }
        i := i + 1;
      }
      return 0;
    }

    /** The body of the readdir loop for one entry `n` of `cur`. */
    method CommitEntryStep(p: Process, cur: string, dp: Path, n: string, stale: seq<char>) returns (ret: int)
      requires p.Valid() && |stale| == PATH_MAX
      requires Resolve(Cwd(p.os), tmp.dirPath + "/" + cur) == Ok(dp)
      requires ValidName(n) && n != "." && n != ".."
      modifies p
      ensures p.Valid()
      ensures Post(p.os, p.flErrno, ret) == CommitEntry(old(p.os), old(p.flErrno), StageOf(stale), cur, dp, n)
      decreases |DirsBelow(p.os.fs, dp)|, 0
    {
      ghost var g, os0, fl0 := StageOf(stale), p.os, p.flErrno;
      var sub := cur + "/" + n;
      match DType(p.os.fs, dp + [n]) {
        case DtDir =>
          ResolveChild(Cwd(p.os), tmp.dirPath + "/" + cur, n);
          assert tmp.dirPath + "/" + sub == tmp.dirPath + "/" + cur + "/" + n;
          DirsBelowShrink(p.os.fs, dp, n);
          ret := CommitDirectory(p, sub, stale);
          assert Post(p.os, p.flErrno, ret) == CommitDir(os0, fl0, g, sub);
        case DtReg =>
          var _ := Copy(p, tmp.dirFd, tmp.dirPath + "/" + cur + "/" + n, rootPath + "/" + cur + "/" + n);
          ret := 0;
        case DtLnk =>
          ret := CopyLink(p, tmp.dirFd, sub, rootFd, sub, stale);
          if ret < 0 {
            p.flErrno := ESendfile;
          }
        case DtOther =>
          ret := 0;
      }
    }

    /** libfl_transact_commit: the walk from the top of the scratch tree. */
    method Commit(p: Process, stale: seq<char>) returns (ret: int)
      requires p.Valid() && |stale| == PATH_MAX
      modifies p
      ensures p.Valid()
      ensures Post(p.os, p.flErrno, ret) == CommitDir(old(p.os), old(p.flErrno), StageOf(stale), "")
    {
      ret := CommitDirectory(p, "", stale);
    }
  }
}
